=== FILE: README.md ===
# Storefront cart and catalog, modelled in Dafny

This project models the domain logic of a small Django storefront. The
database is an immutable `Store` holding five things:

- products;
- registered users;
- at most one cart per user (a cart's key is its owner's id);
- cart items, each pairing a cart with a product and a quantity;
- an auto-increment counter for each table.

Every request is a pure transition from one store to the next. It returns
an outcome (`Ok`, `NotPost`, `BadRequest`, `NotFound`, `Forbidden`,
`FormShown`) or an HTTP status with a JSON body.

The modelled operations:

- the HTML views `add_to_cart`, `cart_view`, `remove_from_cart`, `search`
  and `add_product_page`;
- the REST endpoints `get_products`, `add_product`, `update_product` and
  `delete_product`;
- the product serializer (its JSON shape and field validation);
- the user-registration serializer (unique username and email, password
  match, creation);
- the deletion cascades of the schema.

The schema's invariants are collected in `Models.Valid`:

- every cart has its user;
- every item has its cart and its product;
- quantities are at least 1;
- no two items share a (cart, product) pair;
- usernames and emails are unique;
- counters are above every key in use.

Each state-changing operation comes with a lemma that it preserves `Valid`.

The project has seven modules, one per file:

- `Basics` (`basics.dfy`): `Option` and `Result`.
- `Text` (`text.dfy`): the whitespace `str.strip()` and `int()` skip, ASCII case folding, substring search and the last occurrence of a character.
- `PyInt` (`pyint.dfy`): Python's `int(text)` for base-10 text, with CPython's 4300-digit limit.
- `Models` (`models.dfy`): the schema, its invariants, line totals and the sum of a cart, and the cascades.
- `Serializers` (`serializers.dfy`): the product JSON, product validation, and user registration with `create_user`'s normalization.
- `Views` (`views.dfy`): the HTML views.
- `ProductApi` (`product_api.dfy`): the REST endpoints.

`add_to_cart` works in three layers:

1. `Views.PutInCart` computes the put: get or create the cart, then
   create or increment the item.
2. `Views.IsPut` states relationally what a put does.
3. `Views.PutInCartIsPut` connects the two.

Every property of a put is proved about `IsPut`. Prices are integer cents,
so a cart's subtotal is exact.

## Model

| member | source | states |
|---|---|---|
| Text.Strip | website/serializers.py:8-11 | the trimmed text has no leading or trailing whitespace: Python's `isspace` set for `str.strip()`, that set without U+001C to U+001F for `int()` |
| Text.StripIsMiddle | website/serializers.py:8-11 | what trimming keeps is a contiguous run of the input with only whitespace on either side |
| Text.StripStrip | website/serializers.py:8-11 | trimming is idempotent |
| Text.Contains | website/views.py:57 | the substring search answers true exactly when the pattern occurs at some offset |
| Text.SubstringTransitive | website/views.py:57 | an occurrence inside an occurrence is an occurrence |
| Text.LastIndexOf | website/serializers.py:35-39 | the position found holds the character and no later position does; `None` exactly when the character does not occur |
| Text.LastIndexOfIs | website/serializers.py:35-39 | a position holding the character with none after it is the one found |
| PyInt.ParseInt | website/views.py:114 | `int(text)` yields a value exactly when the text, stripped of the whitespace `int()` skips, is an optional sign and then an ASCII digit run with single underscores between digits and at most 4300 digits |
| PyInt.DecimalDigitsRoundTrip | website/views.py:114 | the decimal spelling of a natural number is a digit run that reads back as that number |
| PyInt.ParseRender | website/views.py:114 | `int(str(n)) == n` for every integer of at most 4300 digits, negative ones included |
| PyInt.ParseRejectsTooLong | website/views.py:113-116 | the spelling of an integer of more than 4300 digits raises `ValueError`, so the bound of `ParseRender` is exact |
| PyInt.ParseNegatedRun | website/views.py:114 | a minus sign before a digit run gives the negated value within the digit limit and `ValueError` beyond it |
| PyInt.ParsePlusRun | website/views.py:114 | a plus sign before a digit run leaves its value within the digit limit and gives `ValueError` beyond it |
| PyInt.ParseIgnoresPadding | website/views.py:114 | the whitespace `int()` skips, around the text, never changes what it reads |
| PyInt.ParseDigitRun | website/views.py:114 | a bare digit run of at most 4300 digits is read as the number its digits spell; a longer one raises `ValueError` |
| PyInt.ParsePadded | website/views.py:114 | `int(" 3\n")` is 3 |
| PyInt.ParseGrouped | website/views.py:114 | `int("1_000")` is 1000 |
| PyInt.ParseRejectsNonNumbers | website/views.py:113-116 | the empty text and a word raise `ValueError` |
| PyInt.ParseRejectsMalformed | website/views.py:113-116 | doubled underscores and a lone sign raise `ValueError` |
| PyInt.ParseKeepsSeparators | website/views.py:113-116 | U+001C before a digit is whitespace to `str.strip()` but makes `int()` raise |
| Models.FindItem | website/models.py:32-34 | the lookup by (cart, product) returns an item of that pair, or `None` only when no item has that pair |
| Models.FindItemUnique | website/models.py:32-34 | under `unique_together`, an item of the pair is the item the lookup returns |
| Models.QuantityZeroIsAbsent | website/models.py:30 | with positive quantities, a product's quantity in a cart is 0 exactly when the cart has no item for it |
| Models.QuantityOfAgrees | website/models.py:32-34 | two stores with the same items for a (cart, product) pair agree on its quantity |
| Models.TotalRemove | website/views.py:160 | the subtotal is independent of summation order: any line can be taken out of the sum first |
| Models.TotalInsert | website/views.py:160 | adding a new line adds its line total to the sum |
| Models.TotalReplace | website/views.py:160 | replacing a line swaps its line total for the new one's |
| Models.InsertProduct | website/apis/views.py:25-26 | creation stores the product under a fresh id and touches no other table |
| Models.RemoveProduct | website/models.py:29 | deleting a product removes it and every item that refers to it, and keeps every other item and product unchanged |
| Models.RemoveCart | website/models.py:28 | deleting a cart removes it and exactly its items; every other cart and item, the users, the products and the id counters are unchanged |
| Models.RemoveUser | website/models.py:20 | deleting a user removes the user, their cart and their cart's items; every other user, cart and item, the products and the id counters are unchanged |
| Models.FewerItemsKeepInvariants | website/models.py:30-34 | dropping items keeps quantities positive and (cart, product) pairs unique |
| Models.RemoveProductKeepsValid | website/models.py:29 | the product cascade leaves a valid store |
| Models.RemoveCartKeepsValid | website/models.py:28 | the cart cascade leaves a valid store |
| Models.RemoveUserKeepsValid | website/models.py:20 | the user cascade leaves a valid store: no cart without its user, no item without its cart |
| Serializers.ToJson | website/serializers.py:8-11 | the representation has exactly the fields id, productname, description and price |
| Serializers.FromToJson | website/serializers.py:8-11 | reading the representation back gives the id and the product |
| Serializers.ToFromJson | website/serializers.py:8-11 | every object that reads as a product is exactly that product's representation |
| Serializers.ValidateProduct | website/serializers.py:8-11 | validation succeeds exactly when the trimmed name is non-blank and at most 250 long and a price is given; a failure names exactly the failing fields; the saved product has the trimmed name, the given price, and the trimmed description, or null when the description is null or absent |
| Serializers.ValidateCanonical | website/serializers.py:8-11 | a product with trimmed fields and an acceptable name validates to itself |
| Serializers.ValidateIdempotent | website/serializers.py:8-11 | a validated product, submitted again, validates to itself |
| Serializers.FieldErrors | website/serializers.py:13-24 | a field is reported exactly when it is missing, blank once stripped, holds a NUL, or is over its model `max_length` once stripped (150 for username, 254 for email); the email also when the address validator rejects its stripped value |
| Serializers.Validate | website/serializers.py:26-30 | the error keyed `password` occurs exactly when the two passwords differ; otherwise the attributes come back unchanged |
| Serializers.NormalizeEmail | website/serializers.py:35-39 | an email without `@` comes back unchanged |
| Serializers.NormalizeEmailSplits | website/serializers.py:35-39 | `local@domain`, with no `@` in the domain and no whitespace at its ends, keeps the local part and lower-cases the domain |
| Serializers.NormalizeEmailIdempotent | website/serializers.py:35-39 | normalizing a normalized email changes nothing |
| Serializers.TakenFields | website/models.py:55-56 | `username` or `email` is reported exactly when another user already holds that exact value |
| Serializers.CreateUser | website/serializers.py:32-40 | `create_user` raises for an empty username and for a normalized username or email another user holds; otherwise it adds one user under a fresh id with the NFKC username, the normalized email and the hashed password, and touches no other table |
| Serializers.CreateIgnoresPassword2 | website/serializers.py:32-40 | the confirmation password never influences the created user |
| Serializers.CreateUserKeepsValid | website/models.py:54-57 | a successful creation keeps usernames and emails unique and the store valid |
| Serializers.Submit | website/serializers.py:26-40 | field errors give a 400 with those fields; otherwise a password mismatch gives a 400 on `password`; otherwise a failing `create_user` escapes as a server error; only a creation changes the store |
| Serializers.Register | website/serializers.py:13-40 | a user is created exactly when every field passes, the stripped username and email are free, the passwords match and the normalized values are free; it is a server error exactly when all but the last hold; any failure leaves the store unchanged |
| Serializers.RegisterCorrected | website/serializers.py:13-40 | with uniqueness checked on the normalized values, no request ends in a server error and a user is created exactly when the fields pass, the normalized values are free and the passwords match |
| Serializers.RegisterKeepsValid | website/models.py:54-57 | registration keeps usernames and emails unique and the store valid |
| Serializers.RegisterCorrectedKeepsValid | website/models.py:54-57 | the corrected registration keeps the store valid |
| Serializers.RegisterIntoEmptyStore | website/serializers.py:13-40 | into a store without users, a request whose fields pass and whose passwords match creates exactly one user |
| Serializers.RegisterStripsFields | website/serializers.py:15-16 | with `b@x.io` accepted by the address validator, a password typed with a trailing space matches its confirmation typed without, and the stripped password is hashed |
| Serializers.RegisterDomainCaseClash | website/serializers.py:32-40 | with `a@x.io` stored and `a@X.io` accepted by the address validator, registering `a@X.io` passes every check of the serializer, but `create_user` hits the unique email: a server error, where the corrected registration answers 400 on `email` |
| Views.ParseQuantity | website/views.py:113-116 | the quantity is the value `int()` reads from the field, and falls back to 1 exactly when the field is absent or `int()` raises |
| Views.QuantityRoundTrip | website/views.py:114 | every integer of at most 4300 digits submitted in decimal, zero and negatives included, is read as itself |
| Views.QuantityBeyondLimit | website/views.py:113-116 | a longer integer makes `int()` raise and counts as one unit |
| Views.QuantityFallback | website/views.py:113-116 | an absent field, an empty field, a word and a digit after U+001C each count as one unit |
| Views.GetOrCreateCart | website/views.py:123 | afterwards the user has a cart; an existing cart is kept as it is; a new one is stamped with the request time (`auto_now_add`); no other cart changes |
| Views.PutInCart | website/views.py:123-138 | after a put the user has a cart and the user and product tables are unchanged |
| Views.PutInCartIsPut | website/views.py:123-138 | the put creates the (cart, product) item with the quantity or adds the quantity to the existing one; every other item is unchanged |
| Views.PutWritesOneKey | website/views.py:126-135 | a put writes exactly one item: the pair's item with old quantity plus the added quantity |
| Views.PutKeepsValid | website/views.py:123-135 | a put keeps one cart per user, one item per pair, positive quantities and fresh keys |
| Views.PutQuantities | website/views.py:126-135 | a put raises the pair's quantity by exactly the added amount and no other pair's quantity changes |
| Views.PutSize | website/views.py:126-135 | a put adds one item when the product was not in the cart and otherwise keeps the item count |
| Views.PutTwice | website/views.py:126-135 | two puts of one product into a cart without it leave a single item holding the sum |
| Views.AddToCart | website/views.py:107-142 | a non-POST, a missing product and a quantity of 0 or less each leave the store unchanged with their own outcome; `Ok` exactly otherwise |
| Views.AddToCartKeepsValid | website/views.py:107-142 | every request to add to a cart keeps the store valid |
| Views.AddToCartQuantities | website/views.py:126-135 | a successful add raises the product's quantity in the user's cart by the parsed amount; no other pair changes |
| Views.AddTwiceAccumulates | website/views.py:126-135 | adding one product twice leaves a single item whose quantity is the sum of both requests |
| Views.CartView | website/views.py:150-155 | the page has items exactly when the user has a cart; without a cart it shows no items and subtotal 0 |
| Views.CartViewListsCart | website/views.py:150-153 | the page lists exactly the items of the user's cart, each with its quantity and its product's current name and price |
| Views.SubtotalIsTotal | website/views.py:160 | the subtotal is the sum of the line totals of the user's items |
| Views.PutSubtotal | website/views.py:160 | a put raises the subtotal by the quantity added times the product's price |
| Views.AddToCartSubtotal | website/views.py:107-163 | a successful add raises the subtotal by the parsed quantity times the price |
| Views.AddToCartOtherPages | website/views.py:107-142 | any add by one user leaves every other user's cart page unchanged |
| Views.SubtotalExample | website/models.py:36-38 | three units at 9.99 plus one unit at 2.50 (quantity left out) give a subtotal of 32.47 |
| Views.RemoveFromCart | website/views.py:166-191 | non-POST, missing item and another user's item each leave the store unchanged with their own outcome; the owner's POST deletes exactly that item |
| Views.RemoveKeepsValid | website/views.py:183-184 | removal keeps the store valid |
| Views.RemoveQuantities | website/views.py:172-191 | only the owner changes anything: that product's quantity drops to 0 and every other pair keeps its quantity |
| Views.RemoveSubtotal | website/views.py:183-184 | removal lowers the owner's subtotal by exactly that item's line total |
| Views.Search | website/views.py:53-58 | an absent or empty query finds nothing; otherwise exactly the products whose name contains the query, ignoring case |
| Views.SearchIgnoresCase | website/views.py:57 | upper- or lower-casing the query does not change the result |
| Views.SearchNarrows | website/views.py:57 | a query that contains another finds no product the shorter one misses |
| Views.SearchExample | website/views.py:57 | the query "PRO" finds a product named "Product A" |
| Views.RunSearch | website/views.py:57 | the product-by-product search computes exactly the search result |
| Views.AddProductPage | website/views.py:72-92 | a GET shows the form and changes nothing; a POST saves under a fresh id exactly when the fields validate and otherwise changes nothing |
| ProductApi.GetProducts | website/apis/views.py:8-16 | 200 with the representation of every stored product |
| ProductApi.GetProductsExact | website/apis/views.py:14-16 | an object is listed exactly when it reads back as a stored product under its id |
| ProductApi.AddProduct | website/apis/views.py:19-29 | 201 with the new product under a fresh id exactly when the fields validate; otherwise 400 with the failing fields and no write |
| ProductApi.AddKeepsValid | website/apis/views.py:25-26 | creating a product keeps the store valid |
| ProductApi.UpdateProduct | website/apis/views.py:32-47 | 404 for a missing key and 400 for invalid fields, both with no change; otherwise only that product is overwritten, keeping its id, and a description left out keeps its stored value |
| ProductApi.UpdateKeepsValid | website/apis/views.py:43-46 | updating keeps the store valid |
| ProductApi.UpdateRepricesCarts | website/apis/views.py:43-46 | after an update, every cart line of the product shows the new name and price with its quantity unchanged |
| ProductApi.DeleteProduct | website/apis/views.py:50-62 | 404 with no change for a missing key; otherwise 204, the product and exactly its cart items are gone and everything else is unchanged |
| ProductApi.DeleteKeepsValid | website/apis/views.py:61-62 | deletion with its cascade keeps the store valid |
| ProductApi.DeleteClearsCartPages | website/apis/views.py:61-62 | after a delete, each cart page lists exactly its former lines minus those of the deleted product |
| ProductApi.DeleteDropsOneLine | website/apis/views.py:61-62 | a delete drops at most one line from a cart: the deleted product's |
| ProductApi.DeleteSubtotal | website/apis/views.py:61-62 | a delete lowers each subtotal by that cart's line of the deleted product, if any |
| ProductApi.PageAndApiAgree | website/views.py:81-84 | the product form and the API create succeed on the same fields and leave the same store |

## Left out

- Login, logout, sessions, `login_required` and the API permission classes are left out: they are framework authentication. The signed-in user is a parameter of each view.
- The `post_save` signal that creates an auth token (website/models.py:46-51) is left out: it is event plumbing outside the store.
- `home`, `products_list`, `user_list` and `add_user_page` are left out: they only render templates. The product listing they show is the list `ProductApi.GetProducts` returns.
- Templates, flash messages and redirect targets are left out: each response becomes an `Outcome` or a `ProductApi.Response`.
- URL routing and the admin registration are left out: they contain no logic.
- Prices are `FloatField`s in the source; the model uses integer cents, so rounding of float sums is not modelled.
- The read-then-write race of `get_or_create` is left out: each request is one atomic transition.
- PyInt.ParseInt: Python's `int()` also accepts non-ASCII decimal digits; the model reads only ASCII digits. The 4300-digit limit is CPython's default, and a changed `sys.set_int_max_str_digits` setting is not modelled.
- Text.Lower: Django's `icontains` on SQLite folds ASCII letters only, and so does the model; other backends that fold Unicode are not modelled.
- Serializers.ValidateProduct: DRF's number parsing of `price` is not modelled. A price that is absent, null or not a number is `None`.
- Serializers.ValidateProduct: the null-character check of DRF's `CharField` is not modelled.
- Serializers.Register: Django's `EmailValidator`, which DRF's `EmailField` runs on the stripped email, is the parameter `emailValid`; its address grammar is not spelled out. A JSON `null` and a missing field are both `None`, and non-string JSON values are not modelled.
- Serializers.CreateUser: password hashing is the parameter `hash`, and NFKC normalization of the username is the parameter `nfkc`.
- Serializers.NormalizeEmail: Python's `str.lower()` folds all of Unicode; the model folds ASCII letters only.
- Serializers.RegisterDomainCaseClash: that Django's `EmailValidator` accepts `a@X.io` (a dot-atom local part and a dotted domain) is a premise of the lemma, not derived in the model, since the validator is a parameter.
- The `PositiveIntegerField` upper bound of the database column is not modelled: quantities are unbounded naturals.
- The order of the products in `get_products` is unspecified in the source, so the model returns a set.
- The `created_at` timestamp of a new cart is the parameter `now`.

The code has no validator that keeps prices non-negative. The model follows
the code, and any integer price validates.

## Findings

| source | as written | input that shows it | evidently intended | confidence | as-written member | corrected member |
|---|---|---|---|---|---|---|
| website/serializers.py:32-40 | the serializer checks uniqueness on the stripped email, but `create_user` stores the email with its domain lower-cased, and the database's unique constraint then raises `IntegrityError`. No route calls this serializer: it is imported at website/views.py:11 and website/apis/views.py:6 and never used, so the error is what any caller of `save()` would get. The exact match assumes a case-sensitive comparison, as SQLite's and PostgreSQL's defaults make it | a stored user with email `a@x.io`; register `bob` with email `a@X.io` and matching passwords | a 400 response with an error on `email`, as for any taken email | not executed | Serializers.RegisterDomainCaseClash | Serializers.RegisterCorrected |

=== FILE: basics.dfy ===
/** Failure-carrying wrappers shared by every module of the model. */
module Basics {

  /** A value that may be absent: a missing form field, a failed parse. */
  datatype Option<+T> = None | Some(value: T)

  /** A validated value, or the error that stopped validation. */
  datatype Result<+R, +E> = Success(value: R) | Failure(error: E)
}

=== FILE: models.dfy ===
/** The relational schema of the storefront as an immutable store of tables:
    products, users, one cart per user, and cart items that pair a cart with
    a product and a quantity. Deletion cascades follow the foreign keys. */
module Models {
  import opened Basics

  type UserId = nat
  type ProductId = nat
  type ItemId = nat

  /** A catalog entry. The price is held in integer cents. */
  datatype Product = Product(name: string, description: Option<string>, price: int)

  /** A registered account; only a hash of the password is kept. */
  datatype AuthUser = AuthUser(username: string, email: string, passwordHash: string)

  /** A cart. Its primary key is its owner's id, the key of `Store.carts`. */
  datatype Cart = Cart(createdAt: int)

  /** One product in one cart, with how many of it. */
  datatype CartItem = CartItem(cart: UserId, product: ProductId, quantity: nat)

  /** Every table, plus the next value of each auto-increment key. */
  datatype Store = Store(
    users: map<UserId, AuthUser>,
    products: map<ProductId, Product>,
    carts: map<UserId, Cart>,
    items: map<ItemId, CartItem>,
    nextUser: nat,
    nextProduct: nat,
    nextItem: nat)

  /** Every cart belongs to an existing user. */
  ghost predicate CartsOwned(s: Store) {
    forall u :: u in s.carts ==> u in s.users
  }

  /** Every item points at an existing cart and an existing product. */
  ghost predicate ItemsReferenced(s: Store) {
    forall id :: id in s.items ==> s.items[id].cart in s.carts && s.items[id].product in s.products
  }

  /** Every item holds at least one unit. */
  ghost predicate QuantitiesPositive(s: Store) {
    forall id :: id in s.items ==> s.items[id].quantity >= 1
  }

  /** `unique_together = ('cart', 'product')`. */
  ghost predicate UniquePairs(items: map<ItemId, CartItem>) {
    forall i, j :: i in items && j in items && i != j ==>
      items[i].cart != items[j].cart || items[i].product != items[j].product
  }

  /** Usernames and emails are each unique among users. */
  ghost predicate UniqueCredentials(users: map<UserId, AuthUser>) {
    forall a, b :: a in users && b in users && a != b ==>
      users[a].username != users[b].username && users[a].email != users[b].email
  }

  /** Each auto-increment counter is above every key in use. */
  ghost predicate FreshCounters(s: Store) {
    && (forall id :: id in s.users ==> id < s.nextUser)
    && (forall id :: id in s.products ==> id < s.nextProduct)
    && (forall id :: id in s.items ==> id < s.nextItem)
  }

  /** The invariant every reachable store satisfies. */
  ghost predicate Valid(s: Store) {
    && CartsOwned(s)
    && ItemsReferenced(s)
    && QuantitiesPositive(s)
    && UniquePairs(s.items)
    && UniqueCredentials(s.users)
    && FreshCounters(s)
  }

  /** `id` is the item of user `u`'s cart for product `p`. */
  ghost predicate IsItemFor(s: Store, id: ItemId, u: UserId, p: ProductId) {
    id in s.items && s.items[id].cart == u && s.items[id].product == p
  }

  /** The item of `u`'s cart for `p`, if there is one. */
  ghost function FindItem(s: Store, u: UserId, p: ProductId): (r: Option<ItemId>)
    ensures r.Some? ==> IsItemFor(s, r.value, u, p)
    ensures r.None? ==> forall id :: !IsItemFor(s, id, u, p)
  {
    if exists id :: IsItemFor(s, id, u, p) then
      var id :| IsItemFor(s, id, u, p);
      Some(id)
    else None
  }

  /** Under the invariant, the item for a (cart, product) pair is the one
      `FindItem` returns. */
  lemma FindItemUnique(s: Store, id: ItemId, u: UserId, p: ProductId)
    requires UniquePairs(s.items)
    requires IsItemFor(s, id, u, p)
    ensures FindItem(s, u, p) == Some(id)
  {
  }

  /** How many units of `p` are in `u`'s cart; 0 when there is no item. */
  ghost function QuantityOf(s: Store, u: UserId, p: ProductId): nat {
    match FindItem(s, u, p)
    case Some(id) => s.items[id].quantity
    case None => 0
  }

  /** With positive quantities, a quantity of 0 means there is no item. */
  lemma QuantityZeroIsAbsent(s: Store, u: UserId, p: ProductId)
    requires QuantitiesPositive(s)
    ensures QuantityOf(s, u, p) == 0 <==> FindItem(s, u, p).None?
  {
  }

  /** Two stores whose items for the pair (`u`, `p`) are the same items
      agree on its quantity. */
  lemma QuantityOfAgrees(s: Store, t: Store, u: UserId, p: ProductId)
    requires UniquePairs(s.items) && UniquePairs(t.items)
    requires forall id :: IsItemFor(s, id, u, p) ==> IsItemFor(t, id, u, p) && t.items[id] == s.items[id]
    requires forall id :: IsItemFor(t, id, u, p) ==> IsItemFor(s, id, u, p) && s.items[id] == t.items[id]
    ensures QuantityOf(t, u, p) == QuantityOf(s, u, p)
  {
    if FindItem(s, u, p).Some? {
      FindItemUnique(t, FindItem(s, u, p).value, u, p);
    }
  }

  /** A cart item joined with its product, as the cart page lists it. */
  datatype Line = Line(product: ProductId, name: string, unitPrice: int, quantity: nat) {

    /** `CartItem.get_total_price`: quantity times unit price. */
    function TotalPrice(): int {
      quantity * unitPrice
    }
  }

  function Join(item: CartItem, p: Product): Line {
    Line(item.product, p.name, p.price, item.quantity)
  }

  /** Sum of the line totals of `lines`, in no particular order. */
  ghost function Total(lines: map<ItemId, Line>): int
    decreases |lines|
  {
    if lines == map[] then 0
    else
      var k :| k in lines;
      assert (lines - {k}).Keys == lines.Keys - {k};
      lines[k].TotalPrice() + Total(lines - {k})
  }

  /** Any line can be taken out of the sum first. */
  lemma {:induction false} TotalRemove(lines: map<ItemId, Line>, k: ItemId)
    requires k in lines
    ensures Total(lines) == lines[k].TotalPrice() + Total(lines - {k})
    decreases |lines|
  {
    var j :| j in lines && Total(lines) == lines[j].TotalPrice() + Total(lines - {j});
    if j != k {
      assert (lines - {j}).Keys == lines.Keys - {j};
      assert (lines - {k}).Keys == lines.Keys - {k};
      TotalRemove(lines - {j}, k);
      TotalRemove(lines - {k}, j);
      assert lines - {j} - {k} == lines - {k} - {j};
    }
  }

  /** Adding a new line adds its total. */
  lemma TotalInsert(lines: map<ItemId, Line>, k: ItemId, l: Line)
    requires k !in lines
    ensures Total(lines[k := l]) == Total(lines) + l.TotalPrice()
  {
    TotalRemove(lines[k := l], k);
    assert lines[k := l] - {k} == lines;
  }

  /** Replacing a line swaps its total for the new one's. */
  lemma TotalReplace(lines: map<ItemId, Line>, k: ItemId, l: Line)
    requires k in lines
    ensures Total(lines[k := l]) == Total(lines) - lines[k].TotalPrice() + l.TotalPrice()
  {
    TotalRemove(lines[k := l], k);
    TotalRemove(lines, k);
    assert lines[k := l] - {k} == lines - {k};
  }

  /** `Product.objects.create`: the new row takes the next product id. */
  function InsertProduct(s: Store, p: Product): (r: (ProductId, Store))
    ensures FreshCounters(s) ==> r.0 !in s.products
    ensures r.1.products == s.products[r.0 := p]
    ensures r.1.users == s.users && r.1.carts == s.carts && r.1.items == s.items
  {
    (s.nextProduct, s.(products := s.products[s.nextProduct := p], nextProduct := s.nextProduct + 1))
  }

  /** Deleting a product; `on_delete=CASCADE` on `CartItem.product` removes
      every item that refers to it. */
  function RemoveProduct(s: Store, pk: ProductId): (r: Store)
    ensures r.products.Keys == s.products.Keys - {pk}
    ensures forall id :: id in r.products ==> r.products[id] == s.products[id]
    ensures forall id :: id in r.items ==> r.items[id].product != pk
    ensures forall id :: id in s.items && s.items[id].product != pk ==> id in r.items && r.items[id] == s.items[id]
    ensures r.items.Keys <= s.items.Keys
    ensures forall id :: id in r.items ==> r.items[id] == s.items[id]
    ensures r.users == s.users && r.carts == s.carts
    ensures r.nextUser == s.nextUser && r.nextProduct == s.nextProduct && r.nextItem == s.nextItem
  {
    s.(products := s.products - {pk},
       items := map id | id in s.items && s.items[id].product != pk :: s.items[id])
  }

  /** Deleting a cart; `on_delete=CASCADE` on `CartItem.cart` removes its items. */
  function RemoveCart(s: Store, u: UserId): (r: Store)
    ensures r.carts.Keys == s.carts.Keys - {u}
    ensures forall id :: id in r.items ==> r.items[id].cart != u
    ensures forall id :: id in s.items && s.items[id].cart != u ==> id in r.items && r.items[id] == s.items[id]
    ensures r.items.Keys <= s.items.Keys
    ensures forall id :: id in r.items ==> r.items[id] == s.items[id]
    ensures forall v :: v in r.carts ==> r.carts[v] == s.carts[v]
    ensures r.users == s.users && r.products == s.products
    ensures r.nextUser == s.nextUser && r.nextProduct == s.nextProduct && r.nextItem == s.nextItem
  {
    s.(carts := s.carts - {u},
       items := map id | id in s.items && s.items[id].cart != u :: s.items[id])
  }

  /** Deleting a user; `on_delete=CASCADE` on `Cart.user` removes the cart,
      which in turn removes its items. */
  function RemoveUser(s: Store, u: UserId): (r: Store)
    ensures r.users.Keys == s.users.Keys - {u}
    ensures forall id :: id in r.users ==> r.users[id] == s.users[id]
    ensures r.carts.Keys == s.carts.Keys - {u}
    ensures forall v :: v in r.carts ==> r.carts[v] == s.carts[v]
    ensures forall id :: id in r.items ==> r.items[id].cart != u
    ensures forall id :: id in s.items && s.items[id].cart != u ==> id in r.items && r.items[id] == s.items[id]
    ensures r.items.Keys <= s.items.Keys
    ensures forall id :: id in r.items ==> r.items[id] == s.items[id]
    ensures r.products == s.products
    ensures r.nextUser == s.nextUser && r.nextProduct == s.nextProduct && r.nextItem == s.nextItem
  {
    RemoveCart(s.(users := s.users - {u}), u)
  }

  /** Dropping items, leaving the rest unchanged, keeps quantities
      positive and (cart, product) pairs unique. */
  lemma FewerItemsKeepInvariants(s: Store, t: Store)
    requires QuantitiesPositive(s) && UniquePairs(s.items)
    requires t.items.Keys <= s.items.Keys
    requires forall id :: id in t.items ==> t.items[id] == s.items[id]
    ensures QuantitiesPositive(t) && UniquePairs(t.items)
  {
  }

  /** Deleting a product keeps every invariant. */
  lemma RemoveProductKeepsValid(s: Store, pk: ProductId)
    requires Valid(s)
    ensures Valid(RemoveProduct(s, pk))
  {
    var t := RemoveProduct(s, pk);
    assert CartsOwned(t);
    assert ItemsReferenced(t);
    FewerItemsKeepInvariants(s, t);
    assert FreshCounters(t);
  }

  /** Deleting a cart keeps every invariant. */
  lemma RemoveCartKeepsValid(s: Store, u: UserId)
    requires Valid(s)
    ensures Valid(RemoveCart(s, u))
  {
    var t := RemoveCart(s, u);
    assert CartsOwned(t);
    OtherCartsKeepReferences(s, t, u);
    FewerItemsKeepInvariants(s, t);
    assert FreshCounters(t);
  }

  /** Deleting a user keeps every invariant: the cascade leaves no cart
      without its user and no item without its cart. */
  lemma RemoveUserKeepsValid(s: Store, u: UserId)
    requires Valid(s)
    ensures Valid(RemoveUser(s, u))
  {
    var t := RemoveUser(s, u);
    assert CartsOwned(t);
    OtherCartsKeepReferences(s, t, u);
    FewerItemsKeepInvariants(s, t);
    assert UniqueCredentials(t.users);
    assert FreshCounters(t);
  }

  /** Items that survive the removal of `u`'s cart still point at an
      existing cart and product. */
  lemma OtherCartsKeepReferences(s: Store, t: Store, u: UserId)
    requires ItemsReferenced(s)
    requires forall id :: id in t.items ==> t.items[id].cart != u
    requires t.items.Keys <= s.items.Keys
    requires forall id :: id in t.items ==> t.items[id] == s.items[id]
    requires forall v :: v in s.carts && v != u ==> v in t.carts
    requires t.products == s.products
    ensures ItemsReferenced(t)
  {
    forall id | id in t.items
      ensures t.items[id].cart in t.carts && t.items[id].product in t.products
    {
      assert t.items[id] == s.items[id];
    }
  }


}

=== FILE: product_api.dfy ===
/** The REST endpoints for products: list, create, full update and delete.
    Each answers with an HTTP status and a JSON body; authentication is left
    to the caller. */
module ProductApi {
  import opened Basics
  import opened Models
  import opened Serializers
  import Views

  const StatusOk := 200
  const StatusCreated := 201
  const StatusNoContent := 204
  const StatusBadRequest := 400
  const StatusNotFound := 404

  /** A response body: none, one product, the list of products (its order
      is unspecified, so it is a set), or the names of the fields that
      failed validation. */
  datatype Body = NoBody | Object(obj: JsonObject) | Objects(objs: set<JsonObject>) | Errors(fields: set<string>)

  datatype Response = Response(status: int, body: Body)

  /** `get_products`: every stored product in its JSON representation. */
  function GetProducts(s: Store): (r: Response)
    ensures r.status == StatusOk && r.body.Objects?
    ensures forall id :: id in s.products ==> ToJson(id, s.products[id]) in r.body.objs
  {
    Response(StatusOk, Objects(set id | id in s.products :: ToJson(id, s.products[id])))
  }

  /** The list holds nothing but stored products: an object is listed
      exactly when it reads back as a stored product with its id. */
  lemma GetProductsExact(s: Store)
    ensures forall j :: j in GetProducts(s).body.objs <==>
              FromJson(j).Some? && FromJson(j).value.0 in s.products
              && s.products[FromJson(j).value.0] == FromJson(j).value.1
  {
    var objs := GetProducts(s).body.objs;
    forall j
      ensures j in objs <==>
                FromJson(j).Some? && FromJson(j).value.0 in s.products
                && s.products[FromJson(j).value.0] == FromJson(j).value.1
    {
      if j in objs {
        var id :| id in s.products && j == ToJson(id, s.products[id]);
        FromToJson(id, s.products[id]);
      }
      if FromJson(j).Some? {
        ToFromJson(j);
      }
    }
  }

  /** `add_product`: the product is saved and echoed with 201 when the
      fields validate; otherwise 400 with the failing fields and no write. */
  function AddProduct(s: Store, input: ProductInput): (r: (Response, Store))
    ensures r.0.status == StatusCreated <==> ValidateProduct(input).Success?
    ensures r.0.status != StatusCreated ==>
              r.0 == Response(StatusBadRequest, Errors(ValidateProduct(input).error)) && r.1 == s
    ensures r.0.status == StatusCreated ==>
              && r.1.users == s.users && r.1.carts == s.carts && r.1.items == s.items
              && exists id: ProductId ::
                   && (FreshCounters(s) ==> id !in s.products)
                   && r.1.products == s.products[id := ValidateProduct(input).value]
                   && r.0.body == Object(ToJson(id, ValidateProduct(input).value))
  {
    match ValidateProduct(input)
    case Failure(e) => (Response(StatusBadRequest, Errors(e)), s)
    case Success(p) =>
      var (id, t) := InsertProduct(s, p);
      (Response(StatusCreated, Object(ToJson(id, p))), t)
  }

  /** `update_product`: 404 and no change for a missing key; 400 and no
      change when the fields do not validate; otherwise the product under
      `pk` is overwritten, keeping its id, and echoed with 200. A description
      left out of the request keeps its stored value. */
  function UpdateProduct(s: Store, pk: ProductId, input: ProductInput): (r: (Response, Store))
    ensures pk !in s.products ==> r == (Response(StatusNotFound, NoBody), s)
    ensures pk in s.products && ValidateProduct(input).Failure? ==>
              r == (Response(StatusBadRequest, Errors(ValidateProduct(input).error)), s)
    ensures r.0.status == StatusOk <==> pk in s.products && ValidateProduct(input).Success?
    ensures r.0.status == StatusOk ==>
              && r.1.users == s.users && r.1.carts == s.carts && r.1.items == s.items
              && r.1.products.Keys == s.products.Keys
              && (forall id :: id in s.products && id != pk ==> r.1.products[id] == s.products[id])
              && var p := ValidateProduct(input).value;
                 && r.1.products[pk].name == p.name
                 && r.1.products[pk].price == p.price
                 && r.1.products[pk].description
                    == (if input.description.Omitted? then s.products[pk].description else p.description)
                 && r.0.body == Object(ToJson(pk, r.1.products[pk]))
  {
    if pk !in s.products then (Response(StatusNotFound, NoBody), s)
    else match ValidateProduct(input)
      case Failure(e) => (Response(StatusBadRequest, Errors(e)), s)
      case Success(p) =>
        var saved := if input.description.Omitted? then p.(description := s.products[pk].description) else p;
        (Response(StatusOk, Object(ToJson(pk, saved))), s.(products := s.products[pk := saved]))
  }

  /** `delete_product`: 404 and no change for a missing key; otherwise 204,
      the product is gone, every other product is untouched, and so is every
      cart item except those that referred to it, which the cascade
      removes. */
  function DeleteProduct(s: Store, pk: ProductId): (r: (Response, Store))
    ensures pk !in s.products ==> r == (Response(StatusNotFound, NoBody), s)
    ensures pk in s.products ==>
              && r.0 == Response(StatusNoContent, NoBody)
              && r.1.products.Keys == s.products.Keys - {pk}
              && (forall id :: id in r.1.products ==> r.1.products[id] == s.products[id])
              && (forall id :: id in r.1.items ==> r.1.items[id].product != pk)
              && (forall id :: id in s.items && s.items[id].product != pk ==> id in r.1.items && r.1.items[id] == s.items[id])
              && r.1.items.Keys <= s.items.Keys
              && r.1.users == s.users && r.1.carts == s.carts
  {
    if pk !in s.products then (Response(StatusNotFound, NoBody), s)
    else (Response(StatusNoContent, NoBody), RemoveProduct(s, pk))
  }

  /** Creating a product keeps the store invariants: its id is fresh. */
  lemma AddKeepsValid(s: Store, input: ProductInput)
    requires Valid(s)
    ensures Valid(AddProduct(s, input).1)
  {
    var t := AddProduct(s, input).1;
    if ValidateProduct(input).Success? {
      assert t == InsertProduct(s, ValidateProduct(input).value).1;
      assert ItemsReferenced(t);
      assert FreshCounters(t);
    }
  }

  /** Updating a product keeps the store invariants: no key changes. */
  lemma UpdateKeepsValid(s: Store, pk: ProductId, input: ProductInput)
    requires Valid(s)
    ensures Valid(UpdateProduct(s, pk, input).1)
  {
    var t := UpdateProduct(s, pk, input).1;
    assert t.products.Keys == s.products.Keys;
    assert ItemsReferenced(t);
    assert FreshCounters(t);
  }

  /** Deleting a product keeps the store invariants: the cascade leaves no
      item pointing at it. */
  lemma DeleteKeepsValid(s: Store, pk: ProductId)
    requires Valid(s)
    ensures Valid(DeleteProduct(s, pk).1)
  {
    RemoveProductKeepsValid(s, pk);
  }

  /** After a delete, a user's cart page lists exactly the lines it listed
      before minus those of the deleted product. */
  lemma DeleteClearsCartPages(s: Store, pk: ProductId, u: UserId)
    ensures Views.CartView(DeleteProduct(s, pk).1, u).items.Some? == Views.CartView(s, u).items.Some?
    ensures var before := Views.CartLines(s, u);
            var after := Views.CartLines(DeleteProduct(s, pk).1, u);
            && (forall id :: id in after <==> id in before && before[id].product != pk)
            && (forall id :: id in after ==> after[id] == before[id])
  {
    var t := DeleteProduct(s, pk).1;
    var before := Views.CartLines(s, u);
    var after := Views.CartLines(t, u);
    forall id
      ensures id in after <==> id in before && before[id].product != pk
    {
      if id in before {
        assert before[id].product == s.items[id].product;
      }
    }
  }

  /** A delete takes out of a user's lines the one line of the deleted
      product, if there is one, and nothing else. */
  lemma DeleteDropsOneLine(s: Store, pk: ProductId, u: UserId)
    requires UniquePairs(s.items)
    ensures FindItem(s, u, pk).None? ==> Views.CartLines(DeleteProduct(s, pk).1, u) == Views.CartLines(s, u)
    ensures FindItem(s, u, pk).Some? ==>
              Views.CartLines(DeleteProduct(s, pk).1, u) == Views.CartLines(s, u) - {FindItem(s, u, pk).value}
  {
    var before := Views.CartLines(s, u);
    var after := Views.CartLines(DeleteProduct(s, pk).1, u);
    DeleteClearsCartPages(s, pk, u);
    if FindItem(s, u, pk).Some? {
      var id := FindItem(s, u, pk).value;
      forall j | j in before && j != id
        ensures before[j].product != pk
      {
        assert !IsItemFor(s, j, u, pk);
      }
      Views.LinesEqual(after, before - {id});
    } else {
      forall j | j in before
        ensures before[j].product != pk
      {
        assert !IsItemFor(s, j, u, pk);
      }
      Views.LinesEqual(after, before);
    }
  }

  /** A delete takes the deleted product's line, if any, out of the sum of
      a user's lines. */
  lemma DeleteLinesTotal(s: Store, pk: ProductId, u: UserId)
    requires UniquePairs(s.items) && pk in s.products
    ensures Total(Views.CartLines(DeleteProduct(s, pk).1, u))
            == Total(Views.CartLines(s, u)) - QuantityOf(s, u, pk) * s.products[pk].price
  {
    var before := Views.CartLines(s, u);
    var after := Views.CartLines(DeleteProduct(s, pk).1, u);
    var price := s.products[pk].price;
    DeleteDropsOneLine(s, pk, u);
    if FindItem(s, u, pk).Some? {
      var id := FindItem(s, u, pk).value;
      var had := s.items[id].quantity;
      assert id in before && before[id] == Join(s.items[id], s.products[pk]);
      assert before[id].TotalPrice() == had * price;
      assert QuantityOf(s, u, pk) == had;
      assert after == before - {id};
      TotalRemove(before, id);
    } else {
      assert QuantityOf(s, u, pk) == 0;
      assert after == before;
    }
  }

  /** A delete lowers each user's subtotal by the line of the deleted
      product in that user's cart, if there is one. */
  lemma DeleteSubtotal(s: Store, pk: ProductId, u: UserId)
    requires Valid(s) && pk in s.products
    ensures Views.CartView(DeleteProduct(s, pk).1, u).subtotal
            == Views.CartView(s, u).subtotal - QuantityOf(s, u, pk) * s.products[pk].price
  {
    assert DeleteProduct(s, pk).1.carts == s.carts;
    if u in s.carts {
      DeleteLinesTotal(s, pk, u);
    } else {
      assert FindItem(s, u, pk).None?;
    }
  }

  /** After a successful update, every cart line of the product shows its
      new name and price, with its quantity unchanged. */
  lemma UpdateRepricesCarts(s: Store, pk: ProductId, input: ProductInput, u: UserId)
    requires UpdateProduct(s, pk, input).0.status == StatusOk
    ensures var t := UpdateProduct(s, pk, input).1;
            var p := ValidateProduct(input).value;
            && Views.CartLines(t, u).Keys == Views.CartLines(s, u).Keys
            && forall id :: id in Views.CartLines(t, u) ==>
                 var line := Views.CartLines(t, u)[id];
                 && line.quantity == Views.CartLines(s, u)[id].quantity
                 && (line.product == pk ==> line.name == p.name && line.unitPrice == p.price)
                 && (line.product != pk ==> line == Views.CartLines(s, u)[id])
  {
  }

  /** The product form page and the API endpoint save the same product the
      same way: a POST of the same fields succeeds on both or on neither,
      and leaves the same store. */
  lemma PageAndApiAgree(s: Store, input: ProductInput)
    ensures (Views.AddProductPage(s, Views.Post, input).0 == Views.Ok) <==> (AddProduct(s, input).0.status == StatusCreated)
    ensures Views.AddProductPage(s, Views.Post, input).1 == AddProduct(s, input).1
  {
  }
}

=== FILE: pyint.dfy ===
/** Python's `int(text)` in base 10, as `add_to_cart` applies it to the
    submitted quantity: surrounding whitespace is ignored, one optional sign,
    then decimal digits in which single underscores may separate digits, at
    most 4300 of them (CPython's default `sys.get_int_max_str_digits()`). */
module PyInt {
  import opened Basics
  import opened Text

  predicate IsDigit(c: char) {
    '0' <= c <= '9'
  }

  function DigitValue(c: char): nat
    requires IsDigit(c)
  {
    c as int - '0' as int
  }

  function DigitChar(d: nat): (c: char)
    requires d < 10
    ensures IsDigit(c) && DigitValue(c) == d
  {
    ('0' as int + d) as char
  }

  /** Every character is a digit or an underscore. */
  predicate DigitsOrUnderscores(d: string) {
    forall i :: 0 <= i < |d| ==> IsDigit(d[i]) || d[i] == '_'
  }

  /** A digit run `int()` accepts: non-empty, starting and ending with a
      digit, and never two underscores in a row. */
  predicate IsDigitRun(d: string) {
    && |d| > 0
    && IsDigit(d[0])
    && IsDigit(d[|d| - 1])
    && DigitsOrUnderscores(d)
    && (forall i :: 0 <= i < |d| - 1 ==> d[i] == '_' ==> d[i + 1] != '_')
  }

  /** The number the digits of `d` spell, underscores skipped. */
  function RunValue(d: string): nat
    requires DigitsOrUnderscores(d)
  {
    if d == [] then 0
    else if d[|d| - 1] == '_' then RunValue(d[..|d| - 1])
    else 10 * RunValue(d[..|d| - 1]) + DigitValue(d[|d| - 1])
  }

  /** The number of digits in `d`, underscores not counted. */
  function DigitCount(d: string): nat {
    if d == [] then 0
    else DigitCount(d[..|d| - 1]) + (if IsDigit(d[|d| - 1]) then 1 else 0)
  }

  /** CPython's default limit on the digits of a decimal string `int()`
      converts; longer ones raise `ValueError`. */
  const MaxStrDigits: nat := 4300

  /** A digit run `int()` converts: well formed and within the limit. */
  predicate IsAcceptedRun(d: string) {
    IsDigitRun(d) && DigitCount(d) <= MaxStrDigits
  }

  /** The literal forms `int()` accepts once whitespace is stripped. */
  predicate IsIntLiteral(t: string) {
    || IsAcceptedRun(t)
    || (|t| > 0 && (t[0] == '+' || t[0] == '-') && IsAcceptedRun(t[1..]))
  }

  /** The value of a literal with no surrounding whitespace; `None` when it
      is not one `int()` accepts. */
  function ParseLiteral(t: string): (r: Option<int>)
    ensures r.Some? <==> IsIntLiteral(t)
  {
    if |t| > 0 && (t[0] == '+' || t[0] == '-') then
      if IsAcceptedRun(t[1..]) then
        var v: int := RunValue(t[1..]);
        Some(if t[0] == '-' then -v else v)
      else None
    else if IsAcceptedRun(t) then Some(RunValue(t))
    else None
  }

  /** `int(text)`: `Some` of the value, or `None` where Python raises
      `ValueError`. Only the whitespace `int()` itself skips is trimmed. */
  function ParseInt(text: string): (r: Option<int>)
    ensures r.Some? <==> IsIntLiteral(Strip(IntSpaces, text))
  {
    ParseLiteral(Strip(IntSpaces, text))
  }

  /** Decimal digits of `n`, most significant first, no leading zero. */
  function DecimalDigits(n: nat): (d: string)
    decreases n
  {
    if n < 10 then [DigitChar(n)]
    else DecimalDigits(n / 10) + [DigitChar(n % 10)]
  }

  function Magnitude(n: int): nat {
    if n < 0 then -n else n
  }

  /** `str(n)`: the decimal spelling of an integer. */
  function Render(n: int): string {
    if n < 0 then "-" + DecimalDigits(Magnitude(n)) else DecimalDigits(Magnitude(n))
  }

  /** The digits of `n` form an accepted run that spells `n` back. */
  lemma {:induction false} DecimalDigitsRoundTrip(n: nat)
    ensures IsDigitRun(DecimalDigits(n))
    ensures forall i :: 0 <= i < |DecimalDigits(n)| ==> IsDigit(DecimalDigits(n)[i])
    ensures RunValue(DecimalDigits(n)) == n
    ensures DigitCount(DecimalDigits(n)) == |DecimalDigits(n)|
    decreases n
  {
    var d := DecimalDigits(n);
    if n >= 10 {
      DecimalDigitsRoundTrip(n / 10);
      assert d[..|d| - 1] == DecimalDigits(n / 10);
      assert forall i :: 0 <= i < |d| - 1 ==> d[i] == DecimalDigits(n / 10)[i];
    } else {
      assert d[..0] == [];
    }
  }

  /** `int(str(n)) == n` for every integer of at most 4300 digits. */
  lemma ParseRender(n: int)
    requires |DecimalDigits(Magnitude(n))| <= MaxStrDigits
    ensures ParseInt(Render(n)) == Some(n)
  {
    DecimalDigitsRoundTrip(Magnitude(n));
    if n < 0 {
      ParseNegatedRun(DecimalDigits(Magnitude(n)));
    } else {
      ParseDigitRun(DecimalDigits(Magnitude(n)));
    }
  }

  /** The spelling of an integer with more than 4300 digits is refused,
      so the bound of `ParseRender` is exact. */
  lemma ParseRejectsTooLong(n: int)
    requires |DecimalDigits(Magnitude(n))| > MaxStrDigits
    ensures ParseInt(Render(n)) == None
  {
    DecimalDigitsRoundTrip(Magnitude(n));
    if n < 0 {
      ParseNegatedRun(DecimalDigits(Magnitude(n)));
    } else {
      ParseDigitRun(DecimalDigits(Magnitude(n)));
    }
  }

  /** A minus sign before a digit run negates it, within the same digit
      limit as the bare run. */
  lemma ParseNegatedRun(d: string)
    requires IsDigitRun(d)
    ensures DigitCount(d) <= MaxStrDigits ==> ParseInt("-" + d) == Some(-(RunValue(d) as int))
    ensures DigitCount(d) > MaxStrDigits ==> ParseInt("-" + d) == None
  {
    var r := "-" + d;
    assert r[1..] == d;
    assert r[|r| - 1] == d[|d| - 1];
    StripUnchanged(IntSpaces, r);
  }

  /** A plus sign before a digit run leaves its value, within the same
      digit limit as the bare run. */
  lemma ParsePlusRun(d: string)
    requires IsDigitRun(d)
    ensures DigitCount(d) <= MaxStrDigits ==> ParseInt("+" + d) == Some(RunValue(d) as int)
    ensures DigitCount(d) > MaxStrDigits ==> ParseInt("+" + d) == None
  {
    var r := "+" + d;
    assert r[1..] == d;
    assert r[|r| - 1] == d[|d| - 1];
    StripUnchanged(IntSpaces, r);
  }

  lemma StripPaddedThree()
    ensures Strip(IntSpaces, " 3\n") == "3"
  {
    assert " 3\n"[1..2] == "3";
  }

  /** Whitespace `int()` skips around the text never changes what it reads. */
  lemma ParseIgnoresPadding(text: string)
    ensures ParseInt(text) == ParseInt(Strip(IntSpaces, text))
  {
    StripStrip(IntSpaces, text);
  }

  /** Whitespace around a literal is ignored. */
  lemma ParsePadded()
    ensures ParseInt(" 3\n") == Some(3)
  {
    StripPaddedThree();
    ParseIgnoresPadding(" 3\n");
    ParseRender(3);
    assert Render(3) == "3";
  }

  /** A bare digit run within the digit limit is accepted and read as the
      number it spells; one beyond the limit is refused. */
  lemma ParseDigitRun(t: string)
    requires IsDigitRun(t)
    ensures DigitCount(t) <= MaxStrDigits ==> ParseInt(t) == Some(RunValue(t))
    ensures DigitCount(t) > MaxStrDigits ==> ParseInt(t) == None
  {
    StripUnchanged(IntSpaces, t);
  }

  /** Single underscores between digits are accepted and skipped. */
  lemma ParseGrouped()
    ensures ParseInt("1_000") == Some(1000)
  {
    var d := "1_000";
    assert |d| == 5 && d[0] == '1' && d[1] == '_' && d[2] == '0' && d[3] == '0' && d[4] == '0';
    forall i | 0 <= i < |d| - 1 && d[i] == '_'
      ensures d[i + 1] != '_'
    {
      assert i == 1;
    }
    GroupedValue();
    ParseDigitRun(d);
  }

  lemma GroupedValue()
    ensures DigitsOrUnderscores("1_000") && RunValue("1_000") == 1000
    ensures DigitCount("1_000") == 4
  {
    assert "1_000"[..4] == "1_00";
    assert "1_00"[..3] == "1_0";
    assert "1_0"[..2] == "1_";
    assert "1_"[..1] == "1";
    assert "1"[..0] == "";
  }

  /** A literal that is its own strip and that `int()` does not accept. */
  lemma Rejected(t: string)
    requires t == [] || (!IsSpaceIn(IntSpaces, t[0]) && !IsSpaceIn(IntSpaces, t[|t| - 1]))
    requires !IsIntLiteral(t)
    ensures ParseInt(t) == None
  {
    StripUnchanged(IntSpaces, t);
  }

  /** An empty field and a word raise `ValueError`. */
  lemma ParseRejectsNonNumbers()
    ensures ParseInt("") == None
    ensures ParseInt("abc") == None
  {
    Rejected("");
    Rejected("abc");
  }

  /** Doubled underscores and a lone sign raise `ValueError`. */
  lemma ParseRejectsMalformed()
    ensures ParseInt("1__0") == None
    ensures ParseInt("+") == None
  {
    var d := "1__0";
    assert d[1] == '_' && d[2] == '_';
    Rejected(d);
    assert "+"[1..] == "";
    Rejected("+");
  }

  /** The information separators U+001C to U+001F are whitespace to
      `str.strip()` but not to `int()`, which refuses them. */
  lemma ParseKeepsSeparators()
    ensures Strip(StrSpaces, "\U{1C}5") == "5"
    ensures ParseInt("\U{1C}5") == None
  {
    assert "\U{1C}5"[1..2] == "5";
    Rejected("\U{1C}5");
  }
}

=== FILE: serializers.dfy ===
/** The serializers: the JSON shape of a product, the validation of submitted
    product fields, and user registration (password match, then creation). */
module Serializers {
  import opened Basics
  import opened Text
  import opened Models

  /** The JSON values a product's fields take. */
  datatype Json = Null | Number(n: int) | Str(s: string)

  /** A JSON object: field name to value. */
  type JsonObject = map<string, Json>

  /** `ProductSerializer.Meta.fields`. */
  const ProductFields: set<string> := {"id", "productname", "description", "price"}

  /** The product's JSON representation. */
  function ToJson(id: ProductId, p: Product): (j: JsonObject)
    ensures j.Keys == ProductFields
  {
    map["id" := Number(id),
        "productname" := Str(p.name),
        "description" := (match p.description case None => Null case Some(d) => Str(d)),
        "price" := Number(p.price)]
  }

  /** Reads a product back from its representation; `None` for any object
      that is not the representation of some product. */
  function FromJson(j: JsonObject): (r: Option<(ProductId, Product)>)
    ensures r.Some? ==> j.Keys == ProductFields
  {
    if && j.Keys == ProductFields
       && j["id"].Number? && j["id"].n >= 0
       && j["productname"].Str?
       && j["price"].Number?
       && !j["description"].Number?
    then
      var description := if j["description"].Str? then Some(j["description"].s) else None;
      Some((j["id"].n, Product(j["productname"].s, description, j["price"].n)))
    else None
  }

  /** The representation loses nothing: reading it gives back the product. */
  lemma FromToJson(id: ProductId, p: Product)
    ensures FromJson(ToJson(id, p)) == Some((id, p))
  {
  }

  /** Every object that reads as a product is exactly that product's
      representation. */
  lemma ToFromJson(j: JsonObject)
    requires FromJson(j).Some?
    ensures ToJson(FromJson(j).value.0, FromJson(j).value.1) == j
  {
    var r := ToJson(FromJson(j).value.0, FromJson(j).value.1);
    assert r.Keys == j.Keys;
    forall k | k in j
      ensures r[k] == j[k]
    {
    }
  }

  /** A submitted value of the nullable `description` field. An absent
      field (`Omitted`) and a null (`NullText`) differ on update: only the
      null clears the column. */
  datatype TextInput = Omitted | NullText | Text(text: string)

  /** Submitted product fields: `None` for a name or price that is absent or
      null (for the price: also one that does not read as a number). */
  datatype ProductInput = ProductInput(productname: Option<string>, description: TextInput, price: Option<int>)

  /** `max_length` of `Product.productname`. */
  const MaxNameLength := 250

  /** The product name is present, and after trimming neither blank nor
      longer than the column. */
  predicate NameAcceptable(name: Option<string>) {
    match name
    case None => false
    case Some(n) => 0 < |Strip(StrSpaces, n)| <= MaxNameLength
  }

  /** The stored value of a submitted description, after whitespace
      trimming; absent and null both store null on creation. */
  function CleanText(t: TextInput): Option<string> {
    match t
    case Text(d) => Some(Strip(StrSpaces, d))
    case _ => None
  }

  /** `ProductSerializer.is_valid()` on the three writable fields: the
      product to save, or the names of the fields that failed. */
  function ValidateProduct(input: ProductInput): (r: Result<Product, set<string>>)
    ensures r.Success? <==> NameAcceptable(input.productname) && input.price.Some?
    ensures r.Failure? ==> r.error <= {"productname", "price"}
    ensures r.Failure? ==> ("productname" in r.error <==> !NameAcceptable(input.productname))
    ensures r.Failure? ==> ("price" in r.error <==> input.price.None?)
    ensures r.Success? ==> r.value.price == input.price.value
    ensures r.Success? ==> r.value.name == Strip(StrSpaces, input.productname.value)
    ensures r.Success? ==>
              r.value.description == (if input.description.Text? then Some(Strip(StrSpaces, input.description.text)) else None)
  {
    if NameAcceptable(input.productname) && input.price.Some? then
      Success(Product(Strip(StrSpaces, input.productname.value), CleanText(input.description), input.price.value))
    else
      Failure((if NameAcceptable(input.productname) then {} else {"productname"})
              + (if input.price.Some? then {} else {"price"}))
  }

  /** The fields of a stored product, as they would be submitted again. */
  function AsInput(p: Product): ProductInput {
    ProductInput(Some(p.name), (match p.description case None => NullText case Some(d) => Text(d)), Some(p.price))
  }

  /** A product whose name and description are already trimmed, and whose
      name is acceptable, validates to itself when submitted again. */
  lemma ValidateCanonical(p: Product)
    requires Strip(StrSpaces, p.name) == p.name && 0 < |p.name| <= MaxNameLength
    requires p.description.Some? ==> Strip(StrSpaces, p.description.value) == p.description.value
    ensures ValidateProduct(AsInput(p)) == Success(p)
  {
    var again := AsInput(p);
    assert NameAcceptable(again.productname);
    assert CleanText(again.description) == p.description;
  }

  /** Validation is a normal form: a validated product, submitted again,
      validates to itself. */
  lemma ValidateIdempotent(input: ProductInput)
    requires ValidateProduct(input).Success?
    ensures ValidateProduct(AsInput(ValidateProduct(input).value)) == ValidateProduct(input)
  {
    var p := ValidateProduct(input).value;
    StripStrip(StrSpaces, input.productname.value);
    if input.description.Text? {
      StripStrip(StrSpaces, input.description.text);
    }
    ValidateCanonical(p);
  }

  /** The registration request as submitted: each field may be missing
      (`None`, which also stands for a JSON `null`: both fail the field). */
  datatype RegistrationInput = RegistrationInput(
    username: Option<string>, email: Option<string>, password: Option<string>, password2: Option<string>)

  /** The names of the registration fields, as error keys. */
  datatype UserField = Username | Email | Password | Password2

  /** The validated data: the four fields after DRF's `CharField` has
      stripped them. */
  datatype Registration = Registration(username: string, email: string, password: string, password2: string)

  /** `username = models.CharField(max_length=150, ...)`. */
  const MaxUsernameLength: nat := 150

  /** `models.EmailField`'s default `max_length`. */
  const MaxEmailLength: nat := 254

  /** The value a `CharField` hands on: the submitted text stripped of
      surrounding whitespace (`trim_whitespace=True`); empty when missing. */
  function Cleaned(f: Option<string>): (v: string)
    ensures f.Some? ==> v == Strip(StrSpaces, f.value)
    ensures f.None? ==> v == []
  {
    match f
    case None => []
    case Some(t) => Strip(StrSpaces, t)
  }

  function CleanedData(input: RegistrationInput): Registration {
    Registration(Cleaned(input.username), Cleaned(input.email), Cleaned(input.password), Cleaned(input.password2))
  }

  /** Whether a `CharField` rejects the submitted value on its own: missing
      or null (`required=True`, `allow_null=False`), blank once stripped
      (`allow_blank=False`), holding a NUL character, or longer than
      `maxLength` once stripped. */
  predicate FieldFails(f: Option<string>, maxLength: Option<nat>) {
    || f.None?
    || Cleaned(f) == []
    || '\0' in Cleaned(f)
    || (maxLength.Some? && |Cleaned(f)| > maxLength.value)
  }

  const UserFields: set<UserField> := {Username, Email, Password, Password2}

  /** The submitted value of a field. */
  function FieldValue(input: RegistrationInput, f: UserField): Option<string> {
    match f
    case Username => input.username
    case Email => input.email
    case Password => input.password
    case Password2 => input.password2
  }

  /** The `max_length` a field inherits from its model field, if any. */
  function MaxLength(f: UserField): Option<nat> {
    match f
    case Username => Some(MaxUsernameLength)
    case Email => Some(MaxEmailLength)
    case Password => None
    case Password2 => None
  }

  /** Whether a field is rejected before any uniqueness check: its
      `CharField` checks, and for the email also the address-format check
      of DRF's `EmailField`. `emailValid` stands for Django's
      `EmailValidator`, applied to the stripped email. */
  predicate FieldRejected(input: RegistrationInput, f: UserField, emailValid: string -> bool) {
    || FieldFails(FieldValue(input, f), MaxLength(f))
    || (f == Email && !emailValid(Cleaned(input.email)))
  }

  /** The fields rejected by their own checks. */
  function FieldErrors(input: RegistrationInput, emailValid: string -> bool): (r: set<UserField>)
    ensures forall f :: f in r <==> FieldRejected(input, f, emailValid)
  {
    set f | f in UserFields && FieldRejected(input, f, emailValid)
  }

  /** A field that passes its checks is present and non-blank. */
  lemma NoFieldErrors(input: RegistrationInput, emailValid: string -> bool)
    requires FieldErrors(input, emailValid) == {}
    ensures input.username.Some? && input.email.Some? && input.password.Some? && input.password2.Some?
    ensures CleanedData(input).username != []
  {
    assert !FieldRejected(input, Username, emailValid);
    assert !FieldRejected(input, Email, emailValid);
    assert !FieldRejected(input, Password, emailValid);
    assert !FieldRejected(input, Password2, emailValid);
  }

  /** `UserRegistrationSerializer.validate`: the attributes unchanged, or an
      error keyed by the `password` field. */
  function Validate(attrs: Registration): (r: Result<Registration, set<UserField>>)
    ensures r.Failure? <==> attrs.password != attrs.password2
    ensures r.Failure? ==> r.error == {Password}
    ensures r.Success? ==> r.value == attrs
  {
    if attrs.password != attrs.password2 then Failure({Password}) else Success(attrs)
  }

  /** Django's `BaseUserManager.normalize_email`: the text is stripped and
      split at its last `@`, and the domain after it lower-cased; an email
      without `@` comes back as it was given. */
  function NormalizeEmail(email: string): (r: string)
    ensures '@' !in email ==> r == email
  {
    var t := Strip(StrSpaces, email);
    StripKeepsOut(StrSpaces, email);
    match LastIndexOf(t, '@')
    case None => email
    case Some(i) => WithLowerDomain(t[..i], t[i + 1..])
  }

  /** `local@domain` with the domain lower-cased. */
  function WithLowerDomain(local: string, domain: string): string {
    local + "@" + Lower(domain)
  }

  /** An email split at its last `@` keeps its local part and lower-cases
      its domain. */
  lemma NormalizeEmailSplits(local: string, domain: string)
    requires '@' !in domain
    requires local == [] || !IsSpaceIn(StrSpaces, local[0])
    requires domain == [] || !IsSpaceIn(StrSpaces, domain[|domain| - 1])
    ensures NormalizeEmail(local + "@" + domain) == local + "@" + Lower(domain)
  {
    var e := local + "@" + domain;
    var i := |local|;
    assert e[..i] == local && e[i] == '@' && e[i + 1..] == domain;
    forall k | i < k < |e|
      ensures e[k] != '@'
    {
      assert e[k] == domain[k - i - 1];
    }
    assert e[0] == if local == [] then '@' else local[0];
    assert e[|e| - 1] == if domain == [] then '@' else domain[|domain| - 1];
    StripUnchanged(StrSpaces, e);
    LastIndexOfIs(e, '@', i);
    NormalizeEmailAt(e, i);
  }

  /** An email whose stripped text has its last `@` at `i`. */
  lemma NormalizeEmailAt(e: string, i: nat)
    requires LastIndexOf(Strip(StrSpaces, e), '@') == Some(i)
    ensures var t := Strip(StrSpaces, e); NormalizeEmail(e) == WithLowerDomain(t[..i], t[i + 1..])
  {
  }

  /** Normalizing an email twice is normalizing it once. */
  lemma NormalizeEmailIdempotent(email: string)
    ensures NormalizeEmail(NormalizeEmail(email)) == NormalizeEmail(email)
  {
    var t := Strip(StrSpaces, email);
    var r := LastIndexOf(t, '@');
    if r.Some? {
      var i := r.value;
      NormalizeEmailAt(email, i);
      StableAtLast(t, i);
    }
  }

  /** A stripped address, split at its last '@' and normalised, stays as it is. */
  lemma StableAtLast(t: string, i: nat)
    requires t == [] || (!IsSpaceIn(StrSpaces, t[0]) && !IsSpaceIn(StrSpaces, t[|t| - 1]))
    requires LastIndexOf(t, '@') == Some(i)
    ensures NormalizeEmail(WithLowerDomain(t[..i], t[i + 1..])) == WithLowerDomain(t[..i], t[i + 1..])
  {
    SplitAtLast(t, i);
    NormalizedStable(t[..i], t[i + 1..]);
  }

  /** Splitting a stripped address at its last '@' meets the conditions of NormalizedStable. */
  lemma SplitAtLast(t: string, i: nat)
    requires t == [] || (!IsSpaceIn(StrSpaces, t[0]) && !IsSpaceIn(StrSpaces, t[|t| - 1]))
    requires LastIndexOf(t, '@') == Some(i)
    ensures '@' !in t[i + 1..]
    ensures t[..i] == [] || !IsSpaceIn(StrSpaces, t[..i][0])
    ensures t[i + 1..] == [] || !IsSpaceIn(StrSpaces, t[i + 1..][|t[i + 1..]| - 1])
  {
  }

  /** An address already in normal form is left alone. */
  lemma NormalizedStable(local: string, domain: string)
    requires '@' !in domain
    requires local == [] || !IsSpaceIn(StrSpaces, local[0])
    requires domain == [] || !IsSpaceIn(StrSpaces, domain[|domain| - 1])
    ensures NormalizeEmail(WithLowerDomain(local, domain)) == WithLowerDomain(local, domain)
  {
    LowerKeepsEnd(StrSpaces, domain);
    LowerKeepsOut(domain, '@');
    NormalizeEmailSplits(local, Lower(domain));
    LowerOfLower(domain);
  }

  /** The fields whose value another user already holds: the unique
      constraints on `AuthUser.username` and `AuthUser.email`, matched
      exactly as the database and DRF's `UniqueValidator` match them. */
  function TakenFields(s: Store, username: string, email: string): (r: set<UserField>)
    ensures Username in r <==> exists u :: u in s.users && s.users[u].username == username
    ensures Email in r <==> exists u :: u in s.users && s.users[u].email == email
    ensures r <= {Username, Email}
  {
    (if exists u :: u in s.users && s.users[u].username == username then {Username} else {})
    + (if exists u :: u in s.users && s.users[u].email == email then {Email} else {})
  }

  /** Why `create_user` raises: an empty username (`ValueError`), or a
      normalized username or email another user holds (`IntegrityError`
      from the database). */
  datatype CreateError = MissingUsername | Duplicate

  /** `UserRegistrationSerializer.create`, i.e. `AuthUser.objects.create_user`:
      a new user with the NFKC-normalized username, the normalized email
      and the hashed password. `hash` stands for the password hasher and
      `nfkc` for `unicodedata.normalize("NFKC", ...)`. */
  function CreateUser(s: Store, data: Registration, hash: string -> string, nfkc: string -> string)
    : (r: Result<(UserId, Store), CreateError>)
    ensures r == Failure(MissingUsername) <==> data.username == []
    ensures r == Failure(Duplicate) <==>
              data.username != [] && TakenFields(s, nfkc(data.username), NormalizeEmail(data.email)) != {}
    ensures r.Success? && FreshCounters(s) ==> r.value.0 !in s.users
    ensures r.Success? ==>
              r.value.1.users == s.users[r.value.0 := AuthUser(nfkc(data.username), NormalizeEmail(data.email), hash(data.password))]
    ensures r.Success? ==> r.value.1.products == s.products && r.value.1.carts == s.carts && r.value.1.items == s.items
  {
    if data.username == [] then Failure(MissingUsername)
    else
      var user := AuthUser(nfkc(data.username), NormalizeEmail(data.email), hash(data.password));
      if TakenFields(s, user.username, user.email) != {} then Failure(Duplicate)
      else
        var id := s.nextUser;
        Success((id, s.(users := s.users[id := user], nextUser := id + 1)))
  }

  /** The confirmation field never reaches user creation. */
  lemma CreateIgnoresPassword2(s: Store, a: Registration, b: Registration, hash: string -> string, nfkc: string -> string)
    requires a.username == b.username && a.email == b.email && a.password == b.password
    ensures CreateUser(s, a, hash, nfkc) == CreateUser(s, b, hash, nfkc)
  {
  }

  /** A successful creation keeps the store valid. */
  lemma CreateUserKeepsValid(s: Store, data: Registration, hash: string -> string, nfkc: string -> string)
    requires Valid(s) && CreateUser(s, data, hash, nfkc).Success?
    ensures Valid(CreateUser(s, data, hash, nfkc).value.1)
  {
    var (id, t) := CreateUser(s, data, hash, nfkc).value;
    var user := t.users[id];
    assert Username !in TakenFields(s, user.username, user.email);
    assert Email !in TakenFields(s, user.username, user.email);
    forall a, b | a in t.users && b in t.users && a != b
      ensures t.users[a].username != t.users[b].username && t.users[a].email != t.users[b].email
    {
      if a == id {
        assert b in s.users;
      } else if b == id {
        assert a in s.users;
      }
    }
  }

  /** What a registration request ends in: a new user, a 400 response with
      the failing field names, or an exception escaping `save()`. */
  datatype Registered = Created(id: UserId) | Invalid(errors: set<UserField>) | ServerError

  /** `is_valid()` then `save()` once the field errors are known: `validate`
      runs only when no field failed, then `create`. */
  function Submit(s: Store, input: RegistrationInput, errors: set<UserField>, hash: string -> string, nfkc: string -> string)
    : (r: (Registered, Store))
    ensures !r.0.Created? ==> r.1 == s
    ensures r.0.Invalid? <==> errors != {} || Cleaned(input.password) != Cleaned(input.password2)
    ensures errors != {} ==> r.0 == Invalid(errors)
    ensures errors == {} && Cleaned(input.password) != Cleaned(input.password2) ==> r.0 == Invalid({Password})
    ensures r.0.Created? ==> CreateUser(s, CleanedData(input), hash, nfkc) == Success((r.0.id, r.1))
    ensures r.0 == ServerError <==>
              errors == {} && Cleaned(input.password) == Cleaned(input.password2)
              && CreateUser(s, CleanedData(input), hash, nfkc).Failure?
  {
    if errors != {} then (Invalid(errors), s)
    else match Validate(CleanedData(input))
      case Failure(e) => (Invalid(e), s)
      case Success(attrs) =>
        match CreateUser(s, attrs, hash, nfkc)
        case Failure(_) => (ServerError, s)
        case Success((id, t)) => (Created(id), t)
  }

  /** Registration as written: each field's `CharField` checks and its
      `UniqueValidator` (an exact match on the stripped value), then
      `validate`, then `create`. The validators compare the value before
      `create_user` normalizes it, while the database compares it after. */
  function Register(
    s: Store, input: RegistrationInput, emailValid: string -> bool, hash: string -> string, nfkc: string -> string)
    : (r: (Registered, Store))
    ensures !r.0.Created? ==> r.1 == s
    ensures r.0.Invalid? ==>
              r.0.errors == FieldErrors(input, emailValid) + TakenFields(s, Cleaned(input.username), Cleaned(input.email))
              || r.0.errors == {Password}
    ensures r.0.Created? <==>
              && FieldErrors(input, emailValid) == {}
              && TakenFields(s, Cleaned(input.username), Cleaned(input.email)) == {}
              && Cleaned(input.password) == Cleaned(input.password2)
              && TakenFields(s, nfkc(Cleaned(input.username)), NormalizeEmail(Cleaned(input.email))) == {}
    ensures r.0 == ServerError <==>
              && FieldErrors(input, emailValid) == {}
              && TakenFields(s, Cleaned(input.username), Cleaned(input.email)) == {}
              && Cleaned(input.password) == Cleaned(input.password2)
              && TakenFields(s, nfkc(Cleaned(input.username)), NormalizeEmail(Cleaned(input.email))) != {}
    ensures r.0.Created? ==>
              r.1.users == s.users[r.0.id := AuthUser(nfkc(Cleaned(input.username)),
                                                      NormalizeEmail(Cleaned(input.email)),
                                                      hash(Cleaned(input.password)))]
  {
    var errors := FieldErrors(input, emailValid) + TakenFields(s, Cleaned(input.username), Cleaned(input.email));
    if errors != {} then Submit(s, input, errors, hash, nfkc)
    else
      NoFieldErrors(input, emailValid);
      Submit(s, input, errors, hash, nfkc)
  }

  /** Registration with the uniqueness checks made on the values
      `create_user` stores: every duplicate becomes a 400 response on its
      field and no exception escapes. */
  function RegisterCorrected(
    s: Store, input: RegistrationInput, emailValid: string -> bool, hash: string -> string, nfkc: string -> string)
    : (r: (Registered, Store))
    ensures r.0 != ServerError
    ensures !r.0.Created? ==> r.1 == s
    ensures r.0.Created? <==>
              && FieldErrors(input, emailValid) == {}
              && TakenFields(s, nfkc(Cleaned(input.username)), NormalizeEmail(Cleaned(input.email))) == {}
              && Cleaned(input.password) == Cleaned(input.password2)
    ensures r.0.Created? ==>
              r.1.users == s.users[r.0.id := AuthUser(nfkc(Cleaned(input.username)),
                                                      NormalizeEmail(Cleaned(input.email)),
                                                      hash(Cleaned(input.password)))]
  {
    var errors := FieldErrors(input, emailValid) + TakenFields(s, nfkc(Cleaned(input.username)), NormalizeEmail(Cleaned(input.email)));
    if errors != {} then Submit(s, input, errors, hash, nfkc)
    else
      NoFieldErrors(input, emailValid);
      Submit(s, input, errors, hash, nfkc)
  }

  /** Registration as written keeps the store valid: the database's unique
      constraints stop every duplicate, if only by an exception. */
  lemma RegisterKeepsValid(
    s: Store, input: RegistrationInput, emailValid: string -> bool, hash: string -> string, nfkc: string -> string)
    requires Valid(s)
    ensures Valid(Register(s, input, emailValid, hash, nfkc).1)
  {
    if Register(s, input, emailValid, hash, nfkc).0.Created? {
      CreateUserKeepsValid(s, CleanedData(input), hash, nfkc);
    }
  }

  /** The corrected registration keeps the store valid. */
  lemma RegisterCorrectedKeepsValid(
    s: Store, input: RegistrationInput, emailValid: string -> bool, hash: string -> string, nfkc: string -> string)
    requires Valid(s)
    ensures Valid(RegisterCorrected(s, input, emailValid, hash, nfkc).1)
  {
    if RegisterCorrected(s, input, emailValid, hash, nfkc).0.Created? {
      CreateUserKeepsValid(s, CleanedData(input), hash, nfkc);
    }
  }

  /** A registration that passes every check into a store with no users
      creates the one user from the stripped fields. */
  lemma RegisterIntoEmptyStore(
    s: Store, input: RegistrationInput, emailValid: string -> bool, hash: string -> string, nfkc: string -> string)
    requires s.users == map[]
    requires FieldErrors(input, emailValid) == {} && Cleaned(input.password) == Cleaned(input.password2)
    ensures Register(s, input, emailValid, hash, nfkc).0.Created?
    ensures var r := Register(s, input, emailValid, hash, nfkc);
            r.1.users == map[r.0.id := AuthUser(nfkc(Cleaned(input.username)), NormalizeEmail(Cleaned(input.email)),
                                                hash(Cleaned(input.password)))]
  {
    assert TakenFields(s, Cleaned(input.username), Cleaned(input.email)) == {};
    assert TakenFields(s, nfkc(Cleaned(input.username)), NormalizeEmail(Cleaned(input.email))) == {};
  }

  /** `bob`'s request with a trailing space after the first password. */
  lemma PaddedPasswordClean(input: RegistrationInput, emailValid: string -> bool)
    requires input == RegistrationInput(Some("bob"), Some("b@x.io"), Some("pw "), Some("pw"))
    requires emailValid("b@x.io")
    ensures FieldErrors(input, emailValid) == {}
    ensures Cleaned(input.password) == Cleaned(input.password2) == "pw"
  {
    StripUnchanged(StrSpaces, input.username.value);
    StripUnchanged(StrSpaces, input.email.value);
    StripUnchanged(StrSpaces, input.password2.value);
    StripTrailingSpace(input.password.value);
    assert !FieldRejected(input, Username, emailValid);
    assert !FieldRejected(input, Email, emailValid);
    assert !FieldRejected(input, Password, emailValid);
    assert !FieldRejected(input, Password2, emailValid);
  }

  lemma StripTrailingSpace(typed: string)
    requires typed == "pw "
    ensures Strip(StrSpaces, typed) == "pw"
  {
    assert typed[0] == 'p' && typed[1] == 'w' && typed[2] == ' ';
    assert Strip(StrSpaces, typed) == typed[0..2];
  }


  /** Whitespace around a field is stripped before any check: a password
      typed with a trailing space matches its confirmation typed without,
      and the stripped password is what gets hashed. */
  lemma RegisterStripsFields(
    s: Store, input: RegistrationInput, emailValid: string -> bool, hash: string -> string, nfkc: string -> string)
    requires s.users == map[]
    requires input == RegistrationInput(Some("bob"), Some("b@x.io"), Some("pw "), Some("pw"))
    requires emailValid("b@x.io")
    ensures Register(s, input, emailValid, hash, nfkc).0.Created?
    ensures var r := Register(s, input, emailValid, hash, nfkc); r.1.users[r.0.id].passwordHash == hash("pw")
  {
    PaddedPasswordClean(input, emailValid);
    RegisterIntoEmptyStore(s, input, emailValid, hash, nfkc);
  }

  /** A store holding one user, `ann` with email `a@x.io`. */
  const AnnStore := Store(map[0 := AuthUser("ann", "a@x.io", "")], map[], map[], map[], 1, 0, 0)

  /** A request for the new user `bob` with `ann`'s email, domain in
      capitals. */
  const BobInput := RegistrationInput(Some("bob"), Some("a@X.io"), Some("pw"), Some("pw"))

  lemma AnnStoreValid()
    ensures Valid(AnnStore)
  {
  }

  /** Every field of `bob`'s request passes its own checks unchanged. */
  lemma BobInputClean(input: RegistrationInput, emailValid: string -> bool)
    requires input == BobInput
    requires emailValid("a@X.io")
    ensures FieldErrors(input, emailValid) == {}
    ensures CleanedData(input) == Registration("bob", "a@X.io", "pw", "pw")
  {
    StripUnchanged(StrSpaces, "bob");
    StripUnchanged(StrSpaces, "a@X.io");
    StripUnchanged(StrSpaces, "pw");
    forall f: UserField
      ensures !FieldRejected(input, f, emailValid)
    {
    }
  }

  lemma BobEmailNormalizes(e: string)
    requires e == "a@X.io"
    ensures NormalizeEmail(e) == "a@x.io"
  {
    var local, domain := "a", "X.io";
    LowerDomain(domain);
    assert e == local + "@" + domain;
    NormalizeEmailSplits(local, domain);
  }

  lemma LowerDomain(d: string)
    requires d == "X.io"
    ensures Lower(d) == "x.io"
  {
    var l := Lower(d);
    assert l[0] == 'x' && l[1] == '.' && l[2] == 'i' && l[3] == 'o';
  }

  /** Neither `bob` nor `a@X.io` matches `ann`'s stored values exactly. */
  lemma BobNotTaken(s: Store, username: string, email: string)
    requires s == AnnStore && username == "bob" && email == "a@X.io"
    ensures TakenFields(s, username, email) == {}
  {
    assert s.users.Keys == {0};
    assert s.users[0].username[0] != username[0];
    assert s.users[0].email[2] != email[2];
  }

  /** An email already stored as `a@x.io`, registered again as
      `a@X.io`: the validator's exact match lets it through, then the
      normalized value hits the database's unique constraint. The
      corrected registration reports the email as taken instead. */
  lemma RegisterDomainCaseClash(
    s: Store, input: RegistrationInput, emailValid: string -> bool, hash: string -> string, nfkc: string -> string)
    requires s == AnnStore && input == BobInput
    requires emailValid("a@X.io")
    ensures Valid(s)
    ensures Register(s, input, emailValid, hash, nfkc).0 == ServerError
    ensures RegisterCorrected(s, input, emailValid, hash, nfkc).0.Invalid?
    ensures Email in RegisterCorrected(s, input, emailValid, hash, nfkc).0.errors
  {
    AnnStoreValid();
    BobInputClean(input, emailValid);
    var data := CleanedData(input);
    BobEmailNormalizes(data.email);
    BobNotTaken(s, data.username, data.email);
    assert s.users[0].email == NormalizeEmail(data.email);
  }

}

=== FILE: text.dfy ===
/** Character-level helpers: the whitespace Python's `str.strip()` removes,
    ASCII case folding (what a case-insensitive `LIKE` compares), and
    substring search. */
module Text {
  import opened Basics

  /** The characters for which Python's `str.isspace()` holds. */
  predicate IsSpace(c: char) {
    || '\t' <= c <= '\r'
    || '\U{1C}' <= c <= ' '
    || c == '\U{85}' || c == '\U{A0}' || c == '\U{1680}'
    || '\U{2000}' <= c <= '\U{200A}'
    || c == '\U{2028}' || c == '\U{2029}' || c == '\U{202F}'
    || c == '\U{205F}' || c == '\U{3000}'
  }

  /** The two whitespace sets Python uses on text: `StrSpaces` is what
      `str.strip()` removes (`str.isspace()`); `IntSpaces` is what `int()`
      skips around a literal, which leaves out the separators U+001C to
      U+001F because `int()` tests ASCII characters with the C-level
      `isspace`. */
  datatype Spaces = StrSpaces | IntSpaces

  predicate IsSpaceIn(w: Spaces, c: char) {
    IsSpace(c) && (w == IntSpaces ==> !('\U{1C}' <= c <= '\U{1F}'))
  }

  predicate AllSpace(w: Spaces, s: string) {
    forall i :: 0 <= i < |s| ==> IsSpaceIn(w, s[i])
  }

  /** The index of the first non-whitespace character of `s` at or after
      `k`; `|s|` when there is none. */
  function SkipSpaces(w: Spaces, s: string, k: nat): (n: nat)
    requires k <= |s|
    ensures k <= n <= |s|
    ensures forall i :: k <= i < n ==> IsSpaceIn(w, s[i])
    ensures n == |s| || !IsSpaceIn(w, s[n])
    decreases |s| - k
  {
    if k < |s| && IsSpaceIn(w, s[k]) then SkipSpaces(w, s, k + 1) else k
  }

  /** The index just past the last non-whitespace character of `s` before
      `k`; 0 when there is none. */
  function SkipSpacesBack(w: Spaces, s: string, k: nat): (n: nat)
    requires k <= |s|
    ensures n <= k
    ensures forall i :: n <= i < k ==> IsSpaceIn(w, s[i])
    ensures n == 0 || !IsSpaceIn(w, s[n - 1])
  {
    if k > 0 && IsSpaceIn(w, s[k - 1]) then SkipSpacesBack(w, s, k - 1) else k
  }

  /** `s` without its leading and trailing whitespace: Python's
      `str.strip()` for `StrSpaces`, the trimming inside `int()` for
      `IntSpaces`. */
  function Strip(w: Spaces, s: string): (r: string)
    ensures |r| <= |s|
    ensures r == [] || (!IsSpaceIn(w, r[0]) && !IsSpaceIn(w, r[|r| - 1]))
  {
    var i := SkipSpaces(w, s, 0);
    if i == |s| then []
    else s[i..SkipSpacesBack(w, s, |s|)]
  }

  /** What `Strip` keeps is a run of `s` with only whitespace on either
      side of it. */
  lemma StripIsMiddle(w: Spaces, s: string)
    ensures var r := Strip(w, s);
            exists i :: 0 <= i <= |s| - |r| && r == s[i..i + |r|]
                        && AllSpace(w, s[..i]) && AllSpace(w, s[i + |r|..])
  {
    var r := Strip(w, s);
    var i := SkipSpaces(w, s, 0);
    assert r == s[i..i + |r|];
    PrefixAllSpace(w, s, i);
    SuffixAllSpace(w, s, i + |r|);
  }

  lemma PrefixAllSpace(w: Spaces, s: string, n: nat)
    requires n <= |s| && forall k :: 0 <= k < n ==> IsSpaceIn(w, s[k])
    ensures AllSpace(w, s[..n])
  {
  }

  lemma SuffixAllSpace(w: Spaces, s: string, n: nat)
    requires n <= |s| && forall k :: n <= k < |s| ==> IsSpaceIn(w, s[k])
    ensures AllSpace(w, s[n..])
  {
    forall k | 0 <= k < |s| - n
      ensures IsSpaceIn(w, s[n..][k])
    {
      assert s[n..][k] == s[n + k];
    }
  }

  /** `Strip` only removes characters. */
  lemma StripKeepsOut(w: Spaces, s: string)
    ensures forall c :: c in Strip(w, s) ==> c in s
  {
  }

  /** A string that neither starts nor ends with whitespace is its own strip. */
  lemma StripUnchanged(w: Spaces, s: string)
    requires s == [] || (!IsSpaceIn(w, s[0]) && !IsSpaceIn(w, s[|s| - 1]))
    ensures Strip(w, s) == s
  {
  }

  /** `Strip` is idempotent. */
  lemma StripStrip(w: Spaces, s: string)
    ensures Strip(w, Strip(w, s)) == Strip(w, s)
  {
    StripUnchanged(w, Strip(w, s));
  }

  function LowerChar(c: char): char {
    if 'A' <= c <= 'Z' then (c as int + 32) as char else c
  }

  function UpperChar(c: char): char {
    if 'a' <= c <= 'z' then (c as int - 32) as char else c
  }

  /** ASCII lower-casing, character by character. */
  function Lower(s: string): (r: string)
    ensures |r| == |s|
    ensures forall i :: 0 <= i < |s| ==> r[i] == LowerChar(s[i])
  {
    seq(|s|, i requires 0 <= i < |s| => LowerChar(s[i]))
  }

  /** ASCII upper-casing, character by character. */
  function Upper(s: string): (r: string)
    ensures |r| == |s|
    ensures forall i :: 0 <= i < |s| ==> r[i] == UpperChar(s[i])
  {
    seq(|s|, i requires 0 <= i < |s| => UpperChar(s[i]))
  }

  /** Folding forgets an upper-casing: the two spellings compare equal. */
  lemma LowerOfUpper(s: string)
    ensures Lower(Upper(s)) == Lower(s)
  {
    assert forall i :: 0 <= i < |s| ==> Lower(Upper(s))[i] == Lower(s)[i];
  }

  /** Folding never turns another character into `c`'s place unless it was
      `c` or its upper-case form; in particular `@` stays out. */
  lemma LowerKeepsOut(s: string, c: char)
    requires c !in s && !('a' <= c <= 'z')
    ensures c !in Lower(s)
  {
  }

  /** Folding leaves whitespace and non-whitespace as they were. */
  lemma LowerCharSpace(w: Spaces, c: char)
    ensures IsSpaceIn(w, LowerChar(c)) == IsSpaceIn(w, c)
  {
  }

  /** A string that does not end in whitespace still does not once folded. */
  lemma LowerKeepsEnd(w: Spaces, s: string)
    requires s == [] || !IsSpaceIn(w, s[|s| - 1])
    ensures Lower(s) == [] || !IsSpaceIn(w, Lower(s)[|s| - 1])
  {
    if s != [] {
      LowerCharSpace(w, s[|s| - 1]);
    }
  }

  /** Folding twice is folding once. */
  lemma LowerOfLower(s: string)
    ensures Lower(Lower(s)) == Lower(s)
  {
    assert forall i :: 0 <= i < |s| ==> Lower(Lower(s))[i] == Lower(s)[i];
  }

  /** `p` occurs in `t` starting at offset `i`. */
  predicate OccursAt(p: string, t: string, i: int) {
    0 <= i <= |t| - |p| && t[i..i + |p|] == p
  }

  /** `p` occurs in `t` at some offset. */
  predicate IsSubstring(p: string, t: string) {
    exists i | 0 <= i <= |t| - |p| :: OccursAt(p, t, i)
  }

  /** `q` occurs in `t` once both are case-folded: the `icontains` lookup. */
  predicate ContainsIgnoreCase(t: string, q: string) {
    IsSubstring(Lower(q), Lower(t))
  }

  /** An occurrence of an occurrence is an occurrence. */
  lemma {:induction false} SubstringTransitive(a: string, b: string, c: string)
    requires IsSubstring(a, b) && IsSubstring(b, c)
    ensures IsSubstring(a, c)
  {
    var i :| OccursAt(a, b, i);
    var j :| OccursAt(b, c, j);
    assert OccursAt(a, b, i) && OccursAt(b, c, j);
    forall k | 0 <= k < |a|
      ensures c[j + i + k] == a[k]
    {
      assert c[j + i + k] == c[j..j + |b|][i + k] == b[i..i + |a|][k];
    }
    assert c[j + i..j + i + |a|] == a;
    assert OccursAt(a, c, j + i);
  }

  /** Naive left-to-right substring search. */
  method Contains(t: string, p: string) returns (found: bool)
    ensures found <==> IsSubstring(p, t)
  {
    if |p| > |t| {
      return false;
    }
    var i := 0;
    while i <= |t| - |p|
      invariant 0 <= i <= |t| - |p| + 1
      invariant forall j :: 0 <= j < i ==> !OccursAt(p, t, j)
    {
      if t[i..i + |p|] == p {
        assert OccursAt(p, t, i);
        return true;
      }
      i := i + 1;
    }
    return false;
  }

  /** The index of the last occurrence of `c` in `s`, as Python's
      `s.rsplit(c, 1)` splits; `None` when `c` does not occur. */
  function LastIndexOf(s: string, c: char): (r: Option<nat>)
    ensures r.None? <==> c !in s
    ensures r.Some? ==> r.value < |s| && s[r.value] == c
    ensures r.Some? ==> forall k :: r.value < k < |s| ==> s[k] != c
  {
    LastIndexBefore(s, c, |s|)
  }

  /** The last occurrence of `c` among the first `n` characters of `s`. */
  function LastIndexBefore(s: string, c: char, n: nat): (r: Option<nat>)
    requires n <= |s|
    ensures r.None? ==> forall k :: 0 <= k < n ==> s[k] != c
    ensures r.Some? ==> r.value < n && s[r.value] == c
    ensures r.Some? ==> forall k :: r.value < k < n ==> s[k] != c
  {
    if n == 0 then None
    else if s[n - 1] == c then Some(n - 1)
    else LastIndexBefore(s, c, n - 1)
  }

  /** An occurrence of `c` with no `c` after it is the last one. */
  lemma LastIndexOfIs(s: string, c: char, i: nat)
    requires i < |s| && s[i] == c
    requires forall k :: i < k < |s| ==> s[k] != c
    ensures LastIndexOf(s, c) == Some(i)
  {
  }
}

=== FILE: views.dfy ===
/** The cart, search and product-form views. Each request is one atomic
    transition of the store; the page or redirect it answers with is reduced
    to an `Outcome`, and the signed-in user is an explicit parameter. */
module Views {
  import opened Basics
  import opened Text
  import opened Models
  import opened Serializers
  import PyInt

  datatype Method = Get | Post | Put | Patch | Delete | Head | Options

  datatype Outcome =
    | Ok          // the change was made; the user is sent on to the next page
    | NotPost     // the request was not a POST: redirected, nothing changed
    | BadRequest  // a submitted value was rejected: error message, nothing changed
    | NotFound    // the addressed row does not exist (HTTP 404)
    | Forbidden   // the item lies in another user's cart: nothing changed
    | FormShown   // the empty product form was rendered

  // ---------------------------------------------------------------------
  // add_to_cart
  // ---------------------------------------------------------------------

  /** The `quantity` form field as `add_to_cart` reads it: `int()` of the
      submitted text, falling back to 1 when the field is absent or `int()`
      raises `ValueError`. */
  function ParseQuantity(field: Option<string>): (q: int)
    ensures q == 1 || (field.Some? && PyInt.ParseInt(field.value) == Some(q))
    ensures field.Some? && PyInt.ParseInt(field.value).Some? ==> q == PyInt.ParseInt(field.value).value
    ensures field.None? || PyInt.ParseInt(field.value).None? ==> q == 1
  {
    match field
    case None => 1
    case Some(text) =>
      match PyInt.ParseInt(text)
      case Some(v) => v
      case None => 1
  }

  /** Every integer of at most 4300 digits submitted in its decimal
      spelling is read back as itself, zero and negative numbers included. */
  lemma QuantityRoundTrip(n: int)
    requires |PyInt.DecimalDigits(PyInt.Magnitude(n))| <= PyInt.MaxStrDigits
    ensures ParseQuantity(Some(PyInt.Render(n))) == n
  {
    PyInt.ParseRender(n);
  }

  /** Longer spellings make `int()` raise, and the quantity falls back to
      one unit. */
  lemma QuantityBeyondLimit(n: int)
    requires |PyInt.DecimalDigits(PyInt.Magnitude(n))| > PyInt.MaxStrDigits
    ensures ParseQuantity(Some(PyInt.Render(n))) == 1
  {
    PyInt.ParseRejectsTooLong(n);
  }

  /** An absent field, an empty field or a word all count as one unit. */
  lemma QuantityFallback()
    ensures ParseQuantity(None) == 1
    ensures ParseQuantity(Some("")) == 1
    ensures ParseQuantity(Some("abc")) == 1
    ensures ParseQuantity(Some("\U{1C}5")) == 1
  {
    PyInt.ParseRejectsNonNumbers();
    PyInt.ParseKeepsSeparators();
  }

  /** `Cart.objects.get_or_create(user=u)`: the store with a cart for `u`,
      created at time `now` when `u` had none. */
  function GetOrCreateCart(s: Store, u: UserId, now: int): (r: Store)
    ensures u in r.carts
    ensures u in s.carts ==> r == s
    ensures u !in s.carts ==> r.carts[u] == Cart(now)
    ensures r.carts.Keys == s.carts.Keys + {u}
    ensures forall v :: v in s.carts ==> r.carts[v] == s.carts[v]
    ensures r == s.(carts := r.carts)
  {
    if u in s.carts then s else s.(carts := s.carts[u := Cart(now)])
  }

  /** Steps 1 and 2 of a successful add: get or create the cart, then
      create the (cart, product) item with `q` units or add `q` to it. */
  ghost function PutInCart(s: Store, u: UserId, pid: ProductId, q: nat, now: int): (t: Store)
    requires q > 0
    ensures u in t.carts && t.carts.Keys == s.carts.Keys + {u}
    ensures t.users == s.users && t.products == s.products
  {
    var s1 := GetOrCreateCart(s, u, now);
    match FindItem(s, u, pid)
    case Some(id) =>
      s1.(items := s1.items[id := s1.items[id].(quantity := s1.items[id].quantity + q)])
    case None =>
      s1.(items := s1.items[s1.nextItem := CartItem(u, pid, q)], nextItem := s1.nextItem + 1)
  }

  /** The relational description of a put of `q` units of `pid` into `u`'s
      cart: `u` has a cart afterwards; the (cart, product) item gets `q` more
      units, or, when there was none, a new item with exactly `q` units is
      created under a fresh key; every other row is unchanged. */
  ghost predicate IsPut(s: Store, t: Store, u: UserId, pid: ProductId, q: nat) {
    && t.users == s.users && t.products == s.products
    && t.carts.Keys == s.carts.Keys + {u}
    && (forall v :: v in s.carts ==> t.carts[v] == s.carts[v])
    && t.nextUser == s.nextUser && t.nextProduct == s.nextProduct
    && (forall id :: id in s.items && !IsItemFor(s, id, u, pid) ==> id in t.items && t.items[id] == s.items[id])
    && (forall id :: id in t.items ==>
          (id in s.items && t.items[id] == s.items[id]) || (t.items[id].cart == u && t.items[id].product == pid))
    && match FindItem(s, u, pid)
       case Some(id) =>
         && t.items.Keys == s.items.Keys
         && t.items[id] == s.items[id].(quantity := s.items[id].quantity + q)
         && t.nextItem == s.nextItem
       case None =>
         && s.nextItem !in s.items
         && t.items.Keys == s.items.Keys + {s.nextItem}
         && t.items[s.nextItem] == CartItem(u, pid, q)
         && t.nextItem == s.nextItem + 1
  }

  /** `PutInCart` is a put, as long as the item counter is fresh. */
  lemma PutInCartIsPut(s: Store, u: UserId, pid: ProductId, q: nat, now: int)
    requires FreshCounters(s) && q > 0
    ensures IsPut(s, PutInCart(s, u, pid, q, now), u, pid, q)
  {
  }

  /** The key a put writes: the existing (cart, product) item, or the next
      item id. */
  ghost function PutKey(s: Store, u: UserId, pid: ProductId): (k: ItemId)
    ensures FindItem(s, u, pid).Some? ==> IsItemFor(s, k, u, pid)
    ensures FreshCounters(s) && FindItem(s, u, pid).None? ==> k !in s.items
  {
    match FindItem(s, u, pid)
    case Some(id) => id
    case None => s.nextItem
  }

  /** A put is a write of one item at `PutKey`: the pair's item with its
      new total quantity. */
  lemma PutWritesOneKey(s: Store, t: Store, u: UserId, pid: ProductId, q: nat)
    requires UniquePairs(s.items) && IsPut(s, t, u, pid, q)
    ensures t.items == s.items[PutKey(s, u, pid) := CartItem(u, pid, QuantityOf(s, u, pid) + q)]
  {
    var k := PutKey(s, u, pid);
    if FindItem(s, u, pid).Some? {
      forall j | j in s.items && j != k
        ensures t.items[j] == s.items[j]
      {
        assert !IsItemFor(s, j, u, pid);
      }
    }
  }

  /** Writing `item` at key `k`, with a cart for its user, keeps every
      store invariant when the item refers to an existing user and product,
      holds at least one unit, and no other key holds its (cart, product)
      pair. */
  lemma WriteKeepsValid(s: Store, t: Store, k: ItemId, item: CartItem)
    requires Valid(s)
    requires t.users == s.users && t.products == s.products && t.items == s.items[k := item]
    requires t.nextUser == s.nextUser && t.nextProduct == s.nextProduct
    requires t.carts.Keys == s.carts.Keys + {item.cart} && item.cart in s.users
    requires item.product in s.products && item.quantity >= 1
    requires k < t.nextItem && s.nextItem <= t.nextItem
    requires forall j :: j in s.items && j != k ==> s.items[j].cart != item.cart || s.items[j].product != item.product
    ensures Valid(t)
  {
    assert CartsOwned(t);
    WriteKeepsReferenced(s, t, k, item);
    WriteKeepsPositive(s, t, k, item);
    WriteKeepsFresh(s, t, k, item);
    WriteKeepsUniquePairs(s.items, k, item);
  }

  lemma WriteKeepsReferenced(s: Store, t: Store, k: ItemId, item: CartItem)
    requires ItemsReferenced(s)
    requires t.products == s.products && t.items == s.items[k := item]
    requires s.carts.Keys <= t.carts.Keys && item.cart in t.carts && item.product in s.products
    ensures ItemsReferenced(t)
  {
  }

  lemma WriteKeepsPositive(s: Store, t: Store, k: ItemId, item: CartItem)
    requires QuantitiesPositive(s)
    requires t.items == s.items[k := item] && item.quantity >= 1
    ensures QuantitiesPositive(t)
  {
  }

  lemma WriteKeepsFresh(s: Store, t: Store, k: ItemId, item: CartItem)
    requires FreshCounters(s)
    requires t.users == s.users && t.products == s.products && t.items == s.items[k := item]
    requires t.nextUser == s.nextUser && t.nextProduct == s.nextProduct
    requires k < t.nextItem && s.nextItem <= t.nextItem
    ensures FreshCounters(t)
  {
  }

  /** Writing an item whose (cart, product) pair no other key holds keeps
      the pairs unique. */
  lemma WriteKeepsUniquePairs(items: map<ItemId, CartItem>, k: ItemId, item: CartItem)
    requires UniquePairs(items)
    requires forall j :: j in items && j != k ==> items[j].cart != item.cart || items[j].product != item.product
    ensures UniquePairs(items[k := item])
  {
    var t := items[k := item];
    forall i, j | i in t && j in t && i != j
      ensures t[i].cart != t[j].cart || t[i].product != t[j].product
    {
      if i != k && j != k {
        assert t[i] == items[i] && t[j] == items[j];
      }
    }
  }

  /** A put into an existing user's cart of an existing product keeps every
      store invariant: one cart per user, one item per (cart, product),
      quantities of at least one, fresh keys. */
  lemma PutKeepsValid(s: Store, t: Store, u: UserId, pid: ProductId, q: nat)
    requires Valid(s) && u in s.users && pid in s.products && q > 0
    requires IsPut(s, t, u, pid, q)
    ensures Valid(t)
  {
    var k := PutKey(s, u, pid);
    var item := CartItem(u, pid, QuantityOf(s, u, pid) + q);
    PutWritesOneKey(s, t, u, pid, q);
    forall j | j in s.items && j != k
      ensures s.items[j].cart != u || s.items[j].product != pid
    {
      if s.items[j].cart == u && s.items[j].product == pid {
        assert IsItemFor(s, j, u, pid);
        FindItemUnique(s, j, u, pid);
      }
    }
    WriteKeepsValid(s, t, k, item);
  }

  /** Writing `item` at a key that held nothing or an item of the same
      (cart, product) pair leaves the quantity of every other pair as it
      was. */
  lemma WriteKeepsOtherQuantities(s: Store, t: Store, k: ItemId, item: CartItem, v: UserId, p: ProductId)
    requires UniquePairs(s.items) && UniquePairs(t.items)
    requires t.items == s.items[k := item]
    requires k in s.items ==> s.items[k].cart == item.cart && s.items[k].product == item.product
    requires v != item.cart || p != item.product
    ensures QuantityOf(t, v, p) == QuantityOf(s, v, p)
  {
    QuantityOfAgrees(s, t, v, p);
  }

  /** A put raises the quantity of its product by exactly `q` (from 0 when
      it was not in the cart), and every other (user, product) pair keeps
      its quantity. */
  lemma PutQuantities(s: Store, t: Store, u: UserId, pid: ProductId, q: nat)
    requires Valid(s) && u in s.users && pid in s.products && q > 0
    requires IsPut(s, t, u, pid, q)
    ensures QuantityOf(t, u, pid) == QuantityOf(s, u, pid) + q
    ensures forall v, p :: v != u || p != pid ==> QuantityOf(t, v, p) == QuantityOf(s, v, p)
  {
    var k := PutKey(s, u, pid);
    var item := CartItem(u, pid, QuantityOf(s, u, pid) + q);
    PutKeepsValid(s, t, u, pid, q);
    PutWritesOneKey(s, t, u, pid, q);
    assert IsItemFor(t, k, u, pid);
    FindItemUnique(t, k, u, pid);
    assert k in s.items ==> s.items[k].cart == u && s.items[k].product == pid;
    forall v, p | v != u || p != pid
      ensures QuantityOf(t, v, p) == QuantityOf(s, v, p)
    {
      WriteKeepsOtherQuantities(s, t, k, item, v, p);
    }
  }

  /** `add_to_cart(request, product_id)` by user `u` at time `now`. */
  ghost function AddToCart(s: Store, u: UserId, m: Method, pid: ProductId, quantity: Option<string>, now: int): (r: (Outcome, Store))
    ensures m != Post ==> r == (NotPost, s)
    ensures m == Post && pid !in s.products ==> r == (NotFound, s)
    ensures m == Post && pid in s.products && ParseQuantity(quantity) <= 0 ==> r == (BadRequest, s)
    ensures r.0 == Ok <==> m == Post && pid in s.products && ParseQuantity(quantity) > 0
    ensures r.0 == Ok ==> u in r.1.carts && r.1.users == s.users && r.1.products == s.products
  {
    if m != Post then (NotPost, s)
    else if pid !in s.products then (NotFound, s)
    else
      var q := ParseQuantity(quantity);
      if q <= 0 then (BadRequest, s)
      else (Ok, PutInCart(s, u, pid, q, now))
  }

  /** Every request to `add_to_cart` by an existing user keeps the store
      invariants. */
  lemma AddToCartKeepsValid(s: Store, u: UserId, m: Method, pid: ProductId, quantity: Option<string>, now: int)
    requires Valid(s) && u in s.users
    ensures Valid(AddToCart(s, u, m, pid, quantity, now).1)
  {
    if AddToCart(s, u, m, pid, quantity, now).0 == Ok {
      var q := ParseQuantity(quantity);
      PutInCartIsPut(s, u, pid, q, now);
      PutKeepsValid(s, PutInCart(s, u, pid, q, now), u, pid, q);
    }
  }

  /** After a successful add, the quantity of the product in the user's
      cart has grown by the requested amount, and no other (user, product)
      pair has changed. */
  lemma AddToCartQuantities(s: Store, u: UserId, pid: ProductId, quantity: Option<string>, now: int)
    requires Valid(s) && u in s.users
    requires AddToCart(s, u, Post, pid, quantity, now).0 == Ok
    ensures var t := AddToCart(s, u, Post, pid, quantity, now).1;
            QuantityOf(t, u, pid) == QuantityOf(s, u, pid) + ParseQuantity(quantity)
    ensures var t := AddToCart(s, u, Post, pid, quantity, now).1;
            forall v, p :: v != u || p != pid ==> QuantityOf(t, v, p) == QuantityOf(s, v, p)
  {
    var q := ParseQuantity(quantity);
    PutInCartIsPut(s, u, pid, q, now);
    PutQuantities(s, PutInCart(s, u, pid, q, now), u, pid, q);
  }

  /** A put adds one item when the product was not in the cart and
      otherwise keeps the number of items. */
  lemma PutSize(s: Store, t: Store, u: UserId, pid: ProductId, q: nat)
    requires FreshCounters(s) && UniquePairs(s.items) && IsPut(s, t, u, pid, q)
    ensures |t.items| == if FindItem(s, u, pid).None? then |s.items| + 1 else |s.items|
  {
    PutWritesOneKey(s, t, u, pid, q);
  }

  /** Two puts of one product into a cart that lacks it leave a single item
      whose quantity is the sum of the two. */
  lemma PutTwice(s: Store, s1: Store, s2: Store, u: UserId, pid: ProductId, q1: nat, q2: nat)
    requires Valid(s) && u in s.users && pid in s.products && q1 > 0 && q2 > 0
    requires QuantityOf(s, u, pid) == 0
    requires IsPut(s, s1, u, pid, q1) && IsPut(s1, s2, u, pid, q2)
    ensures QuantityOf(s2, u, pid) == q1 + q2
    ensures |s2.items| == |s.items| + 1
    ensures forall i, j :: IsItemFor(s2, i, u, pid) && IsItemFor(s2, j, u, pid) ==> i == j
  {
    PutKeepsValid(s, s1, u, pid, q1);
    PutQuantities(s, s1, u, pid, q1);
    QuantityZeroIsAbsent(s, u, pid);
    PutSize(s, s1, u, pid, q1);
    PutKeepsValid(s1, s2, u, pid, q2);
    PutQuantities(s1, s2, u, pid, q2);
    QuantityZeroIsAbsent(s1, u, pid);
    PutSize(s1, s2, u, pid, q2);
  }

  /** Adding one product twice to a cart that lacks it leaves a single item
      whose quantity is the sum of the two requests. */
  lemma AddTwiceAccumulates(s: Store, u: UserId, pid: ProductId, first: Option<string>, second: Option<string>, now1: int, now2: int)
    requires Valid(s) && u in s.users && pid in s.products
    requires QuantityOf(s, u, pid) == 0
    requires ParseQuantity(first) > 0 && ParseQuantity(second) > 0
    ensures var s1 := AddToCart(s, u, Post, pid, first, now1).1;
            var s2 := AddToCart(s1, u, Post, pid, second, now2).1;
            && QuantityOf(s2, u, pid) == ParseQuantity(first) + ParseQuantity(second)
            && |s2.items| == |s.items| + 1
            && (forall i, j :: IsItemFor(s2, i, u, pid) && IsItemFor(s2, j, u, pid) ==> i == j)
  {
    var q1, q2 := ParseQuantity(first), ParseQuantity(second);
    var s1 := PutInCart(s, u, pid, q1, now1);
    var s2 := PutInCart(s1, u, pid, q2, now2);
    assert AddToCart(s, u, Post, pid, first, now1).1 == s1;
    assert AddToCart(s1, u, Post, pid, second, now2).1 == s2;
    PutInCartIsPut(s, u, pid, q1, now1);
    PutKeepsValid(s, s1, u, pid, q1);
    PutInCartIsPut(s1, u, pid, q2, now2);
    PutTwice(s, s1, s2, u, pid, q1, q2);
  }

  // ---------------------------------------------------------------------
  // cart_view
  // ---------------------------------------------------------------------

  /** What the cart page shows: the items (`None` when the user has no cart
      yet) and the subtotal. */
  datatype CartPage = CartPage(items: Option<map<ItemId, Line>>, subtotal: int)

  /** The items of `u`'s cart joined with their products. */
  function CartLines(s: Store, u: UserId): map<ItemId, Line> {
    map id | id in s.items && s.items[id].cart == u && s.items[id].product in s.products ::
      Join(s.items[id], s.products[s.items[id].product])
  }

  /** `cart_view(request)` for user `u`. */
  ghost function CartView(s: Store, u: UserId): (page: CartPage)
    ensures u !in s.carts ==> page == CartPage(None, 0)
    ensures page.items.Some? <==> u in s.carts
  {
    if u !in s.carts then CartPage(None, 0)
    else
      var lines := CartLines(s, u);
      CartPage(Some(lines), Total(lines))
  }

  /** The page lists exactly the items of the user's cart, each with its
      own quantity and its product's current name and price. */
  lemma CartViewListsCart(s: Store, u: UserId)
    requires Valid(s) && u in s.carts
    ensures var lines := CartView(s, u).items.value;
            && (forall id :: id in lines <==> id in s.items && s.items[id].cart == u)
            && (forall id :: id in lines ==>
                  var item := s.items[id];
                  && lines[id].product == item.product
                  && lines[id].quantity == item.quantity
                  && lines[id].name == s.products[item.product].name
                  && lines[id].unitPrice == s.products[item.product].price)
  {
  }

  /** The subtotal is the sum of the line totals of the user's items, also
      when there is no cart (no items, subtotal 0). */
  lemma SubtotalIsTotal(s: Store, u: UserId)
    requires ItemsReferenced(s)
    ensures CartView(s, u).subtotal == Total(CartLines(s, u))
  {
    if u !in s.carts {
      var lines := CartLines(s, u);
      forall id | id in s.items
        ensures id !in lines
      {
        assert s.items[id].cart in s.carts;
      }
      assert lines.Keys == {};
    }
  }

  /** Writing item `id` changes the lines of the item's cart in that key
      only, and no other cart's lines, provided the key did not hold an item
      of that other cart. */
  lemma CartLinesWrite(s: Store, t: Store, id: ItemId, item: CartItem, v: UserId)
    requires t.products == s.products && t.items == s.items[id := item]
    requires item.product in s.products
    ensures CartLines(t, item.cart) == CartLines(s, item.cart)[id := Join(item, s.products[item.product])]
    ensures v != item.cart && (id in s.items ==> s.items[id].cart != v) ==> CartLines(t, v) == CartLines(s, v)
  {
    var u := item.cart;
    assert CartLines(t, u).Keys == (CartLines(s, u)[id := Join(item, s.products[item.product])]).Keys;
    if v != u && (id in s.items ==> s.items[id].cart != v) {
      assert CartLines(t, v).Keys == CartLines(s, v).Keys;
    }
  }

  /** Writing `item` at key `k` replaces the line total that `k` had in
      the item's cart (none, when `k` held no item of that cart) by the new
      item's line total. */
  lemma WriteLinesTotal(s: Store, t: Store, k: ItemId, item: CartItem)
    requires t.products == s.products && t.items == s.items[k := item]
    requires item.product in s.products
    ensures var had := if k in CartLines(s, item.cart) then CartLines(s, item.cart)[k].TotalPrice() else 0;
            Total(CartLines(t, item.cart))
            == Total(CartLines(s, item.cart)) - had + Join(item, s.products[item.product]).TotalPrice()
  {
    var before := CartLines(s, item.cart);
    var line := Join(item, s.products[item.product]);
    CartLinesWrite(s, t, k, item, item.cart);
    if k in before {
      TotalReplace(before, k, line);
    } else {
      TotalInsert(before, k, line);
    }
  }

  /** The arithmetic step of `PutLinesTotal`, kept out of that lemma's
      context, where the solver handles the product poorly. */
  lemma MulDistributes(a: int, b: int, c: int)
    ensures (a + b) * c == a * c + b * c
  {
  }

  /** A put adds `q` times the product's price to the sum of the user's
      lines. */
  lemma PutLinesTotal(s: Store, t: Store, u: UserId, pid: ProductId, q: nat)
    requires UniquePairs(s.items) && FreshCounters(s) && pid in s.products
    requires IsPut(s, t, u, pid, q)
    ensures Total(CartLines(t, u)) == Total(CartLines(s, u)) + q * s.products[pid].price
  {
    var price := s.products[pid].price;
    var k := PutKey(s, u, pid);
    var had := QuantityOf(s, u, pid);
    PutWritesOneKey(s, t, u, pid, q);
    WriteLinesTotal(s, t, k, CartItem(u, pid, had + q));
    var newLine := Join(CartItem(u, pid, had + q), s.products[pid]);
    if FindItem(s, u, pid).Some? {
      assert k in CartLines(s, u);
      var oldLine := CartLines(s, u)[k];
      assert oldLine == Join(s.items[k], s.products[pid]);
      assert oldLine.quantity == had && oldLine.unitPrice == price;
      assert newLine.quantity == had + q && newLine.unitPrice == price;
      MulDistributes(had, q, price);
    } else {
      assert k !in CartLines(s, u) && had == 0;
    }
  }

  /** A put raises the user's subtotal by `q` times the product's price. */
  lemma PutSubtotal(s: Store, t: Store, u: UserId, pid: ProductId, q: nat)
    requires Valid(s) && pid in s.products
    requires IsPut(s, t, u, pid, q)
    ensures CartView(t, u).subtotal == CartView(s, u).subtotal + q * s.products[pid].price
  {
    SubtotalIsTotal(s, u);
    PutLinesTotal(s, t, u, pid, q);
  }

  /** A successful add raises the subtotal by the requested quantity times
      the product's price. */
  lemma AddToCartSubtotal(s: Store, u: UserId, pid: ProductId, quantity: Option<string>, now: int)
    requires Valid(s) && u in s.users
    requires AddToCart(s, u, Post, pid, quantity, now).0 == Ok
    ensures CartView(AddToCart(s, u, Post, pid, quantity, now).1, u).subtotal
            == CartView(s, u).subtotal + ParseQuantity(quantity) * s.products[pid].price
  {
    var q := ParseQuantity(quantity);
    PutInCartIsPut(s, u, pid, q, now);
    PutSubtotal(s, PutInCart(s, u, pid, q, now), u, pid, q);
  }

  /** A put into `u`'s cart leaves every other user's cart page as it was. */
  lemma PutOtherPages(s: Store, t: Store, u: UserId, pid: ProductId, q: nat, v: UserId)
    requires FreshCounters(s) && UniquePairs(s.items) && pid in s.products && v != u
    requires IsPut(s, t, u, pid, q)
    ensures CartView(t, v) == CartView(s, v)
  {
    var k := PutKey(s, u, pid);
    PutWritesOneKey(s, t, u, pid, q);
    CartLinesWrite(s, t, k, CartItem(u, pid, QuantityOf(s, u, pid) + q), v);
  }

  /** Any request to `add_to_cart` by one user leaves every other user's
      cart page as it was. */
  lemma AddToCartOtherPages(s: Store, u: UserId, m: Method, pid: ProductId, quantity: Option<string>, now: int, v: UserId)
    requires Valid(s) && v != u
    ensures CartView(AddToCart(s, u, m, pid, quantity, now).1, v) == CartView(s, v)
  {
    if AddToCart(s, u, m, pid, quantity, now).0 == Ok {
      var q := ParseQuantity(quantity);
      PutInCartIsPut(s, u, pid, q, now);
      PutOtherPages(s, PutInCart(s, u, pid, q, now), u, pid, q, v);
    }
  }

  /** 3 units at 9.99 and 1 unit (the quantity field left out) at 2.50 make
      a subtotal of 32.47, counted in cents. */
  lemma SubtotalExample(s: Store, u: UserId, a: ProductId, b: ProductId, now: int)
    requires Valid(s) && u in s.users && u !in s.carts
    requires a in s.products && s.products[a].price == 999
    requires b in s.products && s.products[b].price == 250
    ensures var s1 := AddToCart(s, u, Post, a, Some("3"), now).1;
            var s2 := AddToCart(s1, u, Post, b, None, now).1;
            CartView(s2, u).subtotal == 3247
  {
    QuantityRoundTrip(3);
    assert PyInt.Render(3) == "3";
    var s1 := AddToCart(s, u, Post, a, Some("3"), now).1;
    AddToCartSubtotal(s, u, a, Some("3"), now);
    AddToCartKeepsValid(s, u, Post, a, Some("3"), now);
    AddToCartSubtotal(s1, u, b, None, now);
  }

  // ---------------------------------------------------------------------
  // remove_from_cart
  // ---------------------------------------------------------------------

  /** `remove_from_cart(request, item_id)` by user `u`. */
  function RemoveFromCart(s: Store, u: UserId, m: Method, id: ItemId): (r: (Outcome, Store))
    ensures m != Post ==> r == (NotPost, s)
    ensures m == Post && id !in s.items ==> r == (NotFound, s)
    ensures m == Post && id in s.items && s.items[id].cart != u ==> r == (Forbidden, s)
    ensures r.0 == Ok <==> m == Post && id in s.items && s.items[id].cart == u
    ensures r.0 == Ok ==> r.1 == s.(items := s.items - {id})
  {
    if m != Post then (NotPost, s)
    else if id !in s.items then (NotFound, s)
    else if s.items[id].cart != u then (Forbidden, s)
    else (Ok, s.(items := s.items - {id}))
  }

  /** Removal keeps every store invariant. */
  lemma RemoveKeepsValid(s: Store, u: UserId, m: Method, id: ItemId)
    requires Valid(s)
    ensures Valid(RemoveFromCart(s, u, m, id).1)
  {
  }

  /** Only the owner can change anything: any other outcome leaves the
      store as it was, and a removal takes that product's quantity in the
      owner's cart to 0 while every other pair keeps its quantity. */
  lemma RemoveQuantities(s: Store, u: UserId, m: Method, id: ItemId)
    requires Valid(s)
    ensures var (outcome, t) := RemoveFromCart(s, u, m, id);
            t != s ==> outcome == Ok && s.items[id].cart == u
    ensures var (outcome, t) := RemoveFromCart(s, u, m, id);
            outcome == Ok ==>
              && QuantityOf(t, u, s.items[id].product) == 0
              && forall v, p :: (v != u || p != s.items[id].product) ==> QuantityOf(t, v, p) == QuantityOf(s, v, p)
  {
    var (outcome, t) := RemoveFromCart(s, u, m, id);
    if outcome == Ok {
      var pid := s.items[id].product;
      forall v, p | v != u || p != pid
        ensures QuantityOf(t, v, p) == QuantityOf(s, v, p)
      {
        QuantityOfAgrees(s, t, v, p);
      }
      forall j | j in t.items
        ensures !IsItemFor(t, j, u, pid)
      {
        assert j != id && t.items[j] == s.items[j];
      }
    }
  }

  /** Two maps of lines with the same keys and values are equal. */
  lemma LinesEqual(a: map<ItemId, Line>, b: map<ItemId, Line>)
    requires forall k :: k in a <==> k in b
    requires forall k :: k in a ==> a[k] == b[k]
    ensures a == b
  {
  }

  /** The owner's removal lowers the subtotal by that item's line total. */
  lemma RemoveSubtotal(s: Store, u: UserId, id: ItemId)
    requires Valid(s)
    requires RemoveFromCart(s, u, Post, id).0 == Ok
    ensures CartView(RemoveFromCart(s, u, Post, id).1, u).subtotal
            == CartView(s, u).subtotal - s.items[id].quantity * s.products[s.items[id].product].price
  {
    var t := RemoveFromCart(s, u, Post, id).1;
    var before := CartLines(s, u);
    var after := CartLines(t, u);
    assert u in s.carts && u in t.carts;
    assert id in before && before[id] == Join(s.items[id], s.products[s.items[id].product]);
    LinesEqual(after, before - {id});
    TotalRemove(before, id);
  }

  // ---------------------------------------------------------------------
  // search
  // ---------------------------------------------------------------------

  /** `search(request)` with query parameter `q`: nothing for an absent or
      empty query, otherwise the products whose name contains `q`
      ignoring case. */
  function Search(s: Store, q: Option<string>): (r: map<ProductId, Product>)
    ensures q.None? || q == Some("") ==> r == map[]
    ensures forall id :: id in r ==> id in s.products && r[id] == s.products[id]
    ensures q.Some? && q.value != "" ==>
              forall id :: id in s.products ==> (id in r <==> ContainsIgnoreCase(s.products[id].name, q.value))
  {
    match q
    case None => map[]
    case Some(text) =>
      if text == "" then map[]
      else map id | id in s.products && ContainsIgnoreCase(s.products[id].name, text) :: s.products[id]
  }

  /** The query's letter case does not matter. */
  lemma SearchIgnoresCase(s: Store, q: string)
    ensures Search(s, Some(Upper(q))) == Search(s, Some(q))
    ensures Search(s, Some(Lower(q))) == Search(s, Some(q))
  {
    LowerOfUpper(q);
    LowerOfLower(q);
    if q != "" {
      assert Upper(q) != "" && Lower(q) != "";
    }
  }

  /** A longer query finds no more: when `q` occurs in `longer` (ignoring
      case), every product found by `longer` is found by `q`. */
  lemma SearchNarrows(s: Store, q: string, longer: string)
    requires q != ""
    requires ContainsIgnoreCase(longer, q)
    ensures Search(s, Some(longer)).Keys <= Search(s, Some(q)).Keys
  {
    if longer != "" {
      forall id | id in Search(s, Some(longer))
        ensures id in Search(s, Some(q))
      {
        SubstringTransitive(Lower(q), Lower(longer), Lower(s.products[id].name));
      }
    }
  }

  /** `search("PRO")` finds a product named "Product A". */
  lemma SearchExample(s: Store, id: ProductId)
    requires id in s.products && s.products[id].name == "Product A"
    ensures id in Search(s, Some("PRO"))
  {
    assert Lower("PRO") == "pro";
    assert Lower("Product A")[0..3] == "pro";
    assert OccursAt(Lower("PRO"), Lower("Product A"), 0);
  }

  /** `search` computed one product at a time. */
  method RunSearch(s: Store, q: Option<string>) returns (r: map<ProductId, Product>)
    ensures r == Search(s, q)
  {
    r := map[];
    if q.None? || q.value == "" {
      return;
    }
    var pattern := Lower(q.value);
    var remaining := s.products.Keys;
    while remaining != {}
      invariant remaining <= s.products.Keys
      invariant forall id :: id in r <==>
                  id in s.products && id !in remaining && ContainsIgnoreCase(s.products[id].name, q.value)
      invariant forall id :: id in r ==> r[id] == s.products[id]
      decreases remaining
    {
      var id :| id in remaining;
      var found := Contains(Lower(s.products[id].name), pattern);
      if found {
        r := r[id := s.products[id]];
      }
      remaining := remaining - {id};
    }
    assert r.Keys == Search(s, q).Keys;
  }

  // ---------------------------------------------------------------------
  // add_product_page
  // ---------------------------------------------------------------------

  /** `add_product_page(request)`: a GET renders the form; a POST saves the
      product when the fields validate and rejects them otherwise. */
  function AddProductPage(s: Store, m: Method, input: ProductInput): (r: (Outcome, Store))
    ensures m != Post ==> r == (FormShown, s)
    ensures m == Post ==> (r.0 == Ok <==> ValidateProduct(input).Success?)
    ensures r.0 != Ok ==> r.1 == s
    ensures r.0 == Ok ==> r.1.users == s.users && r.1.carts == s.carts && r.1.items == s.items
    ensures r.0 == Ok && FreshCounters(s) ==>
              exists id: ProductId :: id !in s.products && r.1.products == s.products[id := ValidateProduct(input).value]
  {
    if m != Post then (FormShown, s)
    else match ValidateProduct(input)
      case Failure(_) => (BadRequest, s)
      case Success(p) => (Ok, InsertProduct(s, p).1)
  }
}
